=== FILE: README.md ===
# galois++ finite fields in Dafny

A model of the core of galois++: the library that builds the lookup tables
of a Galois field `GF(q)`, `q = p^n`, and computes with field elements by
table lookup.

- **Element encoding** (`Polynomials`). An element of `GF(p^n)` is a vector
  of `n` base-`p` digits. `prepare` enumerates them with a ripple-carry
  counter (`Click`, `Increment`, `Enumerate`). `poly2int` turns a vector back
  into its integer by Horner's rule (`Poly2Int`). `polySum` adds two vectors
  digit-wise with the C++ remainder (`PolySum`).
- **Polynomial product** (`PolyProduct`). `polyProd` forms the full
  convolution, folds degrees `2n-2 … n` back with the catalog vector `xton`
  (the coefficients of `x^n`), and takes every coefficient through C++ `%`.
- **The builder** (`Fields`). `prepare` fills:
  - the `plus` and `times` tables;
  - `inv` and `neg`, by scanning the tables for the last `j` that gives 1 or 0, and throwing at the first nonzero element that has none;
  - `root`, by scanning the diagonal of `times`.

  `getField` validates `q` and looks up the catalog vector. `Field(q)` and
  `resize` wrap `getField`. A thrown exception is a `Fail`/`Failure` value,
  and the field is returned as it stands when the exception leaves. So the
  partly rebuilt field after a failed `prepare`, and the untouched field after
  a rejected argument, are both part of the model.
- **Elements** (`Elements`).
  - `Element` is a value bound to a field.
  - The constructor and `operator=(int)` validate the value.
  - `+ - * / %` are lookups through the validating constructor. `%` is the integer remainder.
  - `+= -= *= /= %=` store the lookup unchecked.
  - Scalar operands are promoted through the constructor.
  - `++`/`--` update in place.
  - `sqrt`, `negative` and `inverse` go through the constructor.
  - `==` compares the field size and the value.
  - The compile-time switch `GF_SIZE_DEBUG` is the parameter `sizeDebug`.
- **Laws** (`FieldLaws`, `ElementLaws`):
  - every built field is an abelian group under `plus`;
  - `times` is a commutative operation with zero and one;
  - the builder's checks guarantee reciprocals, negatives and square roots;
  - `getField` and `Field(q)` succeed exactly for the prime powers whose catalog vector passes the reciprocal check, and then leave a valid field of `q` elements; `resize` to a new size, or from a valid field, leaves a valid field of the new size (resizing to the current size returns true without looking at the field);
  - the element identities of the repository's tests hold in every built field.

Tables keep the layout of `Array2d`: the entry `t(x, y)` is `t[y][x]`, so
`prepare`'s `plus(j, i)` is `plus[i][j]` and `a + b` reads `plus[b][a]`
(`Fields.At`).

The catalog of `x^n` vectors (src/xtndeclare.h and the generated dispatch
file) is a parameter `map<int, seq<int>>`. `findPrimePower`, declared in
include/galois++/primes.h without its body, is modelled by its own search
(`PrimePowers.FindPrimePower`). Its contract is the one the declaration's
comment gives.

The comment on `sqrt()` (include/galois++/element.h:321) promises "the
element y ... such that y*y = x", but an element with no square root has
`root[v] == -1`, and `sqrt()` passes that value to the validating
constructor, which throws. `inverse()` of zero throws the same way, because
`inv[0] == -1`. The model follows the code (`Elements.Sqrt`,
`Elements.Inverse`).

The reciprocal loop of `prepare` (src/field.cpp:177-192) keeps the last
matching `j` in `inv[i]`, and throws inside the loop, at the first nonzero
element without one, leaving later entries unscanned. The model follows
this (`Fields.LastMatch`, `Fields.WrittenUpTo`, `Fields.Prepare`).

## Model

| member | source | states |
|---|---|---|
| `Arithmetic.CRem` | src/field.cpp:104 | C++ `%` for a positive divisor: the remainder differs from the dividend by a multiple of the divisor, lies strictly between `-b` and `b`, and takes the dividend's sign |
| `PrimePowers.IsPrime` | include/galois++/primes.h:88-94 | true exactly for primes |
| `PrimePowers.FindPrimePower` | include/galois++/primes.h:96-104 | succeeds exactly when `q = p^n` for a prime `p` and `n >= 1`, and then returns such a `p` and `n` |
| `Polynomials.ToDigits` | src/field.cpp:154-166 | the `n` base-`p` digits of an element, each in `[0, p)` |
| `Polynomials.EvalRange` | src/field.cpp:107-123 | a vector of `n` digits has positional value in `[0, p^n)` |
| `Polynomials.EvalToDigits` | src/field.cpp:154-166 | round trip: the value of the digits of `i < p^n` is `i` |
| `Polynomials.ToDigitsEval` | src/field.cpp:154-166 | round trip: the digits of a digit vector's value are that vector |
| `Polynomials.ToDigitsInjective` | src/field.cpp:154-166 | distinct elements have distinct digit vectors, so the rows of `poly` are pairwise distinct |
| `Polynomials.ZerosAreDigitsOfZero` | src/field.cpp:154-155 | row 0 of `poly` is all zeros |
| `Polynomials.Click` | src/field.cpp:160-161 | the carry position: every lower digit is `p-1` and the digit there is not |
| `Polynomials.IncrementDigits` | src/field.cpp:157-166 | the ripple-carry step keeps every digit in `[0, p)` |
| `Polynomials.IncrementValue` | src/field.cpp:157-166 | the ripple-carry step adds exactly one to the positional value |
| `Polynomials.Increment` | src/field.cpp:157-166 | the ripple-carry step of the enumeration: `Click` zeros, one digit raised, the rest copied; its partners `IncrementDigits`, `IncrementValue` and `IncrementToDigits` prove it keeps digits and adds exactly one |
| `Polynomials.AllTopDigits` | src/field.cpp:160-161 | if no position stops the carry, the vector is `p^n - 1` |
| `Polynomials.ClickBelowTop` | src/field.cpp:157-161 | for every row `i < q - 1` the carry position stays below `n` |
| `Polynomials.IncrementToDigits` | src/field.cpp:157-166 | incrementing the digits of `i` gives the digits of `i + 1` |
| `Polynomials.Enumerate` | src/field.cpp:154-166 | row `i` of the enumeration is the digit vector of `i` |
| `Polynomials.PolySum` | src/field.cpp:101-105 | `n` coefficients, each congruent to `p1[k] + p2[k]` modulo `p`, and each a digit when the inputs are non-negative |
| `Polynomials.HornerFromValue` | src/field.cpp:117-119 | the loop's accumulator in closed form: Horner's rule gives the positional sum |
| `Polynomials.HornerFrom` | src/field.cpp:117-119 | the loop `ans = (ans + poly[i]) * p` for `i` from `n - 1` down to 1; `HornerFromValue` gives its closed form |
| `Polynomials.Poly2Int` | src/field.cpp:115-123 | equals the positional value `Σ poly[k]·p^k`, which lies in `[0, p^n)` for a digit vector |
| `PolyProduct.FoldFrom` | src/field.cpp:85-86 | folding degree `d` adds `xton[k]·lp[d]` to position `d - n + k` and leaves every other position alone |
| `PolyProduct.Reduce` | src/field.cpp:84-86 | the fold keeps the length and keeps non-negative coefficients non-negative |
| `PolyProduct.PolyProd` | src/field.cpp:74-90 | `n` coefficients, all digits when operands and `xton` are non-negative |
| `PolyProduct.LongProdNonNegative` | src/field.cpp:79-82 | the convolution of non-negative vectors is non-negative |
| `PolyProduct.LongProd` | src/field.cpp:79-82 | the `2n - 1` coefficients of the convolution; `LongProdNonNegative`, `LongProdSymmetric` and `LongProdOneIs` state its sign, symmetry and unit |
| `PolyProduct.LongProdSymmetric` | src/field.cpp:79-82 | the convolution is symmetric in its operands |
| `PolyProduct.PolyProdSymmetric` | src/field.cpp:74-90 | `polyProd(p1, p2) == polyProd(p2, p1)` |
| `PolyProduct.ReduceOfLow` | src/field.cpp:84-86 | folding a vector with zero high coefficients changes nothing |
| `PolyProduct.PolyProdZero` | src/field.cpp:74-90 | the zero vector times anything is zero |
| `PolyProduct.LongProdOneIs` | src/field.cpp:79-82 | the convolution with the constant 1 is the other operand padded with zeros |
| `PolyProduct.PolyProdOne` | src/field.cpp:74-90 | the constant 1 times a digit vector is that vector |
| `PolyProduct.PolyProdPrime` | src/field.cpp:74-90 | for `n == 1` the product is `(a·b) % p` |
| `Fields.PolyTable` | src/field.cpp:152-166 | `q` rows of `n` digits; row `i` is the digit vector of `i` |
| `Fields.PlusTable` | src/field.cpp:168-172 | a `q×q` table |
| `Fields.TimesTable` | src/field.cpp:168-174 | a `q×q` table |
| `Fields.ScanFrom` | src/field.cpp:179-182 | the scan loop returns `-1` or a matching index, and no later index matches |
| `Fields.LastMatch` | src/field.cpp:179-182 | the last `j` with `row[j] == v`, or `-1` when there is none |
| `Fields.InvScan` | src/field.cpp:177-183 | `inv[i]` is the last `j` with `times(j, i) == 1`, or `-1` |
| `Fields.NegScan` | src/field.cpp:195-201 | `neg[i]` is the last `j` with `plus(j, i) == 0`, or `-1` |
| `Fields.RootScan` | src/field.cpp:212-218 | `root[i]` is the last `j` with `times(j, j) == i`, or `-1` |
| `Fields.FirstFailure` | src/field.cpp:184-192 | the first nonzero index whose scan result is `<= 0` (where the check throws), or the length when there is none |
| `Fields.WrittenUpTo` | src/field.cpp:149-192 | the vector as a throw at index `k` leaves it: scanned up to `k`, zero after |
| `Fields.Prepare` | src/field.cpp:134-220 | `n` and `p` set, `q == p^n`, every vector of length `q`, `q×q` tables, row `i` of `poly` the digits of `i`; only the reciprocal or negative check can throw |
| `Fields.GetField` | src/field.cpp:233-278 | throws for `q < 1`, for `q == 1`, for a non-prime-power and for a missing catalog vector, in that order, each time with the field untouched; on success the field is shaped and has `q` elements over a prime |
| `Fields.NewField` | src/field.cpp:287-290 | a field of exactly `q` elements, or the error `getField` throws |
| `Fields.Resize` | src/field.cpp:292-295 | the same size is a no-op that returns true; success means the new size; failure only when the size changes; a rejected size leaves the field as it was |
| `FieldLaws.PolySumCommutes` | src/field.cpp:101-105 | `polySum` is commutative |
| `FieldLaws.PolySumZero` | src/field.cpp:101-105 | adding the zero vector to a digit vector returns it |
| `FieldLaws.PolySumAssociates` | src/field.cpp:101-105 | `polySum` is associative on digit vectors |
| `FieldLaws.PolySumNeg` | src/field.cpp:101-105 | the digit-wise `(p - d) % p` is a digit vector whose sum with `d` is zero |
| `FieldLaws.PlusEntry` | src/field.cpp:168-172 | `plus[i][j]` is the integer of the digit-wise sum of the digits of `i` and `j`, inside `[0, q)` |
| `FieldLaws.TimesEntry` | src/field.cpp:173-174 | `times[i][j]` is the integer of the product of the digits of `i` and `j`, inside `[0, q)` |
| `FieldLaws.PlusSymmetric` | src/field.cpp:168-172 | `plus(j, i) == plus(i, j)` |
| `FieldLaws.PlusZero` | src/field.cpp:168-172 | 0 is the additive identity |
| `FieldLaws.PlusAssociative` | src/field.cpp:168-172 | `plus` is associative |
| `FieldLaws.NegativeExists` | src/field.cpp:195-210 | every element has a negative, nonzero for a nonzero element |
| `FieldLaws.TimesSymmetric` | src/field.cpp:173-174 | `times(j, i) == times(i, j)` |
| `FieldLaws.TimesZero` | src/field.cpp:173-174 | row 0 of `times` is zero |
| `FieldLaws.TimesOne` | src/field.cpp:173-174 | row 1 of `times` is the identity |
| `FieldLaws.PrimeFieldPlus` | src/field.cpp:168-172 | for `n == 1` addition is `(i + j) % p` |
| `FieldLaws.PrimeFieldTimes` | src/field.cpp:173-174 | for `n == 1` multiplication is `(i·j) % p` |
| `FieldLaws.LastMatchPositive` | src/field.cpp:179-184 | the scan result is positive exactly when some `j > 0` matches |
| `FieldLaws.LastMatchOnly` | src/field.cpp:179-182 | when exactly one index matches, the scan returns it |
| `FieldLaws.LastMatchAbsent` | src/field.cpp:179-182 | with no match the scan returns `-1` |
| `FieldLaws.NegativeCheckPasses` | src/field.cpp:195-210 | the "no negative" check never throws |
| `FieldLaws.ReciprocalCheck` | src/field.cpp:177-193 | the reciprocal check passes exactly when every nonzero element has a reciprocal `j > 0` |
| `FieldLaws.PrepareSucceeds` | src/field.cpp:134-220 | `prepare` succeeds exactly when every nonzero element has a reciprocal |
| `FieldLaws.FirstWithoutReciprocal` | src/field.cpp:177-193 | the element the check throws at has no reciprocal, and every nonzero element before it has one |
| `FieldLaws.PrepareFailureState` | src/field.cpp:134-193 | the field a "no reciprocal" throw leaves, spelled out |
| `FieldLaws.PrepareFailureVectors` | src/field.cpp:149-193 | after that throw `neg` and `root` are zero vectors and `inv` is scanned only up to the failing element |
| `FieldLaws.PrepareFailure` | src/field.cpp:177-193 | a failed `prepare` names an element with no reciprocal, all earlier ones having theirs |
| `FieldLaws.PlusOperation` | src/field.cpp:168-172 | every `plus` entry lies in `[0, q)` |
| `FieldLaws.TimesOperation` | src/field.cpp:173-174 | every `times` entry lies in `[0, q)` |
| `FieldLaws.PlusLaws` | src/field.cpp:168-172 | `plus` is a commutative, associative operation with identity 0 |
| `FieldLaws.NegOfZero` | src/field.cpp:195-201 | `neg[0] == 0` |
| `FieldLaws.TimesCommutative` | src/field.cpp:168-175 | the `times` table is symmetric, whatever the catalog vector |
| `FieldLaws.TimesUnitRows` | src/field.cpp:168-175 | row 0 of `times` is all zeros and row 1 is the identity |
| `FieldLaws.ScannedMultiplication` | src/field.cpp:177-218 | scanning such a table, when the reciprocal check passes, gives `inv[0] == -1`, a reciprocal for every nonzero element and the last-match square roots |
| `FieldLaws.PrepareSuccessState` | src/field.cpp:134-220 | the field a successful `prepare` returns, spelled out |
| `FieldLaws.BuiltAdditiveGroup` | src/field.cpp:168-210 | a successful build's `plus` and `neg` form an abelian group |
| `FieldLaws.NegScanFindsNegatives` | src/field.cpp:195-210 | every nonzero `neg[i]` is a nonzero element `j` with `plus(j, i) == 0` |
| `FieldLaws.BuiltMultiplicationTable` | src/field.cpp:173-218 | a successful build's `times`, `inv` and `root` satisfy the reciprocal and square-root postconditions |
| `FieldLaws.PrepareValid` | src/field.cpp:134-220 | a successful `prepare` over a prime yields a valid field |
| `FieldLaws.GetFieldValid` | src/field.cpp:233-278 | `getField` succeeds exactly for a prime power whose catalog vector gives every nonzero element a reciprocal, and then leaves a valid field of `q` elements |
| `FieldLaws.NewFieldValid` | src/field.cpp:287-290 | `Field(q)` yields a valid field of `q` elements exactly under the same condition, and otherwise throws |
| `FieldLaws.ResizeValid` | src/field.cpp:292-295 | a successful `resize` to a new size, or from a valid field, leaves a valid field of the requested size; resizing to the current size returns true whatever the field holds |
| `Elements.New` | include/galois++/element.h:25-29 | succeeds exactly when the field is non-null and `0 <= v < q`, and otherwise throws `domain_error` |
| `Elements.IsValid` | include/galois++/element.h:355-358 | a non-null field and `0 <= v < q`; `Elements.New` succeeds exactly when it holds |
| `Elements.Assign` | include/galois++/element.h:50-56 | stores `v` exactly when it is valid; otherwise throws and leaves the element unchanged |
| `Elements.MakeValidAsWritten` | include/galois++/element.h:72 | `m_value % q` with C++ `%`: congruent to the value, valid for a non-negative value, never positive for a negative one |
| `Elements.MakeValidAsWrittenKeepsNegatives` | include/galois++/element.h:72 | a negative value that is not a multiple of `q` is still invalid after `makeValid()` |
| `Elements.MakeValid` | include/galois++/element.h:71-72 | the value's representative modulo `q` in `[0, q)` |
| `Elements.MakeValidKeepsMembers` | include/galois++/element.h:71-72 | a valid element is left unchanged |
| `Elements.MakeValidAgrees` | include/galois++/element.h:72 | the written and the intended versions agree on non-negative values |
| `Elements.Precheck` | include/galois++/element.h:246-253 | first the size check under `GF_SIZE_DEBUG`, then the zero-divisor check of `/` and `%` |
| `Elements.Lookup` | include/galois++/element.h:95-299 | the table read of each operator: `plus(x, y)`, `plus(x, neg[y])`, `times(x, y)`, `times(x, inv[y])`, and for `%`, which reads no table and so accepts any stored values and a divisor from any field, the C++ remainder: it differs from `x` by a multiple of `y`, is smaller than `y` in absolute value, has the sign of `x`, and is the Euclidean one when both are non-negative; `ElementLaws.LookupInField` proves every read of a field's own values is an element |
| `Elements.Binary` | include/galois++/element.h:95-299 | `+ - * / %`: the error of the first failing check, or the looked-up value wrapped as an element of the left operand's field exactly when it is valid; `%` asks nothing of the stored values |
| `Elements.Compound` | include/galois++/element.h:108-311 | `+= -= *= /= %=`: the same checks; on a throw the element is unchanged; otherwise it keeps its field |
| `Elements.ScalarRight` | include/galois++/element.h:122 | `a op k`: an out-of-range `k` throws; otherwise it is `a op Element(gf, k)` |
| `Elements.CompoundScalar` | include/galois++/element.h:124 | `a op= k`: an out-of-range `k` throws with `a` unchanged; otherwise it is `a op= Element(gf, k)` |
| `Elements.ScalarLeft` | include/galois++/element.h:374-397 | `k op b`: an out-of-range `k` throws; otherwise it is `Element(gf, k) op b` |
| `Elements.PreIncrement` | include/galois++/element.h:126-134 | `++a` is `a += 1` in the unchecked form and yields the updated element |
| `Elements.PostIncrement` | include/galois++/element.h:136-141 | `a++` yields the old element and makes the same update |
| `Elements.PreDecrement` | include/galois++/element.h:184-192 | `--a` is `a -= 1` in the unchecked form and yields the updated element |
| `Elements.PostDecrement` | include/galois++/element.h:194-199 | `a--` yields the old element and makes the same update |
| `Elements.Sqrt` | include/galois++/element.h:322-329 | `root[v]` when it is a valid value; otherwise throws |
| `Elements.Negative` | include/galois++/element.h:332-339 | `neg[v]` when it is a valid value; otherwise throws |
| `Elements.Inverse` | include/galois++/element.h:341-348 | `inv[v]` when it is a valid value; otherwise throws |
| `Elements.Eq` | include/galois++/element.h:364-367 | equal field sizes and equal values compare equal, whatever the tables; within one field `==` is equality of elements; different sizes or different values never compare equal |
| `Elements.Ne` | include/galois++/element.h:369-372 | equal field sizes and equal values make `!=` false, whatever the tables; within one field `!=` is inequality of elements; a different size or value makes `!=` hold |
| `ElementLaws.ValidOperands` | include/galois++/element.h:101-105 | in a built field every table read of every operator is in bounds |
| `ElementLaws.LookupInField` | include/galois++/element.h:95-299 | in a built field every looked-up value is an element, and `%` stays below the divisor |
| `ElementLaws.BinaryInField` | include/galois++/element.h:246-299 | in a built field an operator throws exactly for a zero divisor of `/` or `%`, and otherwise yields an element of the same field |
| `ElementLaws.CompoundMatchesBinary` | include/galois++/element.h:108-120 | the in-place form has the binary form's result and errors; the two differ exactly when the binary form rejects the looked-up value, which the in-place form stores unchecked |
| `ElementLaws.CompoundInField` | include/galois++/element.h:262-276 | in a built field the in-place form leaves exactly the binary result |
| `ElementLaws.AddCommutes` | include/galois++/element.h:95-106 | `a + b == b + a` |
| `ElementLaws.AddAssociates` | include/galois++/element.h:95-106 | `(a + b) + c == a + (b + c)` |
| `ElementLaws.AddZero` | include/galois++/element.h:95-106 | `a + 0 == a` |
| `ElementLaws.NegativeInField` | include/galois++/element.h:332-339 | `negative()` never throws in a built field |
| `ElementLaws.AddNegative` | include/galois++/element.h:332-339 | `a + (-a) == 0` |
| `ElementLaws.NegateTwice` | tests/main.cpp:173-182 | `-(-a) == a` |
| `ElementLaws.SubIsAddNegative` | include/galois++/element.h:153-164 | `c - d == c + (-d)` |
| `ElementLaws.SubAddCancel` | tests/main.cpp:193-215 | `(c - d) + d == c` and `d + (c - d) == c` |
| `ElementLaws.SubSelf` | include/galois++/element.h:153-164 | `a - a == 0` |
| `ElementLaws.AddSubCancel` | include/galois++/element.h:153-164 | `(c + d) - d == c` |
| `ElementLaws.MulCommutes` | include/galois++/element.h:208-219 | `a * b == b * a` |
| `ElementLaws.MulZeroOne` | include/galois++/element.h:208-219 | `a * 0 == 0` and `a * 1 == a` |
| `ElementLaws.InverseInField` | include/galois++/element.h:341-348 | `inverse()` succeeds exactly for nonzero elements |
| `ElementLaws.MulInverse` | include/galois++/element.h:341-348 | `a * inverse(a) == 1` for nonzero `a` |
| `ElementLaws.DivIsMulInverse` | include/galois++/element.h:246-260 | `a / b == a * inverse(b)` for nonzero `b` |
| `ElementLaws.DivSelf` | tests/main.cpp:547-556 | `b / b == 1` for nonzero `b` |
| `ElementLaws.DivOne` | include/galois++/element.h:246-260 | `a / 1 == a` |
| `ElementLaws.ModRemainder` | include/galois++/element.h:290-299 | `a % b` is the integer remainder of the values, below `b` |
| `Elements.SetValue` | include/galois++/element.h:68 | stores any value unchecked; the result is an element of its field exactly when the validating assignment would have accepted the value, and then it is the same element |
| `ElementLaws.ModOfStoredValues` | include/galois++/element.h:290-311 | `%` and `%=` accept any stored values, even out-of-range ones: `%=` stores the C++ remainder by the absolute value of `b`, and `%` gives the integer remainder when both are non-negative; a negative value not divisible by the divisor leaves `%=` with a negative value and makes `%` throw |
| `ElementLaws.ModOfOutOfRangeExample` | include/galois++/element.h:290-311 | in `GF(4)`, `setValue(7)` then `% 3` is the element 1, and `setValue(-5)` then `%= 3` stores -2 |
| `ElementLaws.ModAcrossFields` | include/galois++/element.h:290-299 | without the size check, `a % b` with a divisor from any field, even a larger one, is accepted and is the integer remainder in `a`'s field |
| `ElementLaws.SqrtInField` | include/galois++/element.h:322-329 | `sqrt()` succeeds exactly when some element squares to `a`; the result is the largest such element and its square is `a` |
| `ElementLaws.IncrementIsAddOne` | include/galois++/element.h:126-141 | `++a` gives `a + 1`; `a++` yields `a` and leaves `a + 1` |
| `ElementLaws.DecrementIsSubOne` | include/galois++/element.h:184-199 | `--a` gives `a - 1`; `a--` yields `a` and leaves `a - 1` |
| `ElementLaws.DecrementUndoesIncrement` | include/galois++/element.h:126-192 | `--` after `++` restores the element |
| `ElementLaws.ScalarCommutes` | include/galois++/element.h:374-387 | `k + b == b + k` and `k * b == b * k` for every integer `k`, including the throwing ones |
| `ElementLaws.EqWithinField` | include/galois++/element.h:364-372 | within one field, `==` is element equality and `!=` its negation |
| `ElementLaws.EqAcrossFields` | include/galois++/element.h:364-372 | the tables are not compared: equal values in two distinct fields of the same size compare equal and not unequal |

## Left out

- `ipow` (src/field.cpp:55-58): floating-point `std::pow`, and not used by the builder.
- The `operator<<` dumps of `Field` and `Element`: formatting only.
- `Array2d`: replaced by `seq<seq<int>>` in the same row-major layout.
- The catalog data in src/xtndeclare.h and the generated dispatch file. The catalog is a parameter. The catalog's polynomials are not checked for irreducibility, so no concrete `GF(4)` or `GF(9)` build is evaluated. For prime fields, the effect of the `{0}` vector is covered by `FieldLaws.PrimeFieldPlus` and `FieldLaws.PrimeFieldTimes`.
- `nthPrime`, `primeGE`, `nthPrimePower`, `primePowerGE`, `isPrimePower`: declared in include/galois++/primes.h with no body, and not used by the core.
- 32-bit `int` overflow in `polyProd`, `poly2int` and the size computation: integers are unbounded. The `O(q²)` memory of the tables is not modelled.
- Pointer lifetime of `Element::m_gf`. A field pointer that may be null appears only at construction (`Option`). An element holds its field by value.
- The copy constructor, `operator=(const Element&)` and the accessors `field()`, `value()`, `isZero()`: value semantics of the datatype.
- `GF_RANGE_DEBUG`: its `.at()` checks are the bounds obligations. `+`, `-`, `*` and `/` require the table reads they make to be in bounds (`Elements.LookupDefined`), so they are not modelled on values `setValue` put out of range, where the unchecked build reads out of bounds and the checked one throws `std::out_of_range`; `%` reads no table and accepts any stored values.
- The default argument `value = 0` of `Element(const Field*, int)` (include/galois++/element.h:25): `Elements.New` always takes the value explicitly; `New(gf, 0)` is the defaulted call.
- The default `Field()` leaves `q` uninitialised. It is modelled as `Fields.Empty` with `q = 0`.
- The "Construction failed" branch of `getField`: `prepare` always returns true, so the branch cannot be reached.
- Associativity of `times`, distributivity, and the existence of reciprocals. They hold only when the catalog polynomial is irreducible, which the code does not establish. The model states reciprocals as the postcondition of the builder's check (`FieldLaws.PrepareSucceeds`, `FieldLaws.GetFieldValid`). The test identities that need them, `(A*B)/A == B` and `(A/B)*B == A`, are not modelled.
- `FieldLaws.TimesEntry`: requires a non-negative catalog vector, as every vector in src/xtndeclare.h is. With a negative vector the product's coefficients could be negative, and the entry would leave `[0, q)`.
- `FieldLaws.PrimeFieldTimes`: the same non-negative catalog requirement.
- `FieldLaws.GetFieldValid`: requires `CatalogNonNegative` for the same reason.
- `Elements.Compound`: its own contract states only the error path and the field. The value it stores is stated against the binary form in `ElementLaws.CompoundMatchesBinary`.

## Findings

| source | as written | input that shows it | evidently intended | confidence | as-written member | corrected member |
|---|---|---|---|---|---|---|
| include/galois++/element.h:72 | `makeValid()` sets `m_value = m_value % m_gf->q`, and C++ `%` keeps the sign of a negative value | `setValue(-1)` then `makeValid()` in a field with `q = 4` leaves the value `-1`, which `isValid()` rejects | its comment: "ensure that the value is valid by modding with the GF's size q", that is, the representative in `[0, q)` | medium; not executed | `Elements.MakeValidAsWritten`, `Elements.MakeValidAsWrittenKeepsNegatives` | `Elements.MakeValid` |

=== FILE: arithmetic.dfy ===
/** Integer facts the field builder relies on: powers, C++ remainder, and finite double sums. */
module Arithmetic {

  function Pow(b: int, e: nat): int
  {
    if e == 0 then 1 else b * Pow(b, e - 1)
  }

  lemma {:induction false} PowPositive(b: int, e: nat)
    requires b >= 1
    ensures Pow(b, e) >= 1
  {
    if e > 0 {
      PowPositive(b, e - 1);
      assert b * Pow(b, e - 1) >= Pow(b, e - 1) by {
        assert (b - 1) * Pow(b, e - 1) >= 0;
      }
    }
  }

  /** For a base of at least 2 a positive power is at least the base, and so at least 2. */
  lemma {:induction false} PowAtLeastBase(b: int, e: nat)
    requires b >= 2 && e >= 1
    ensures Pow(b, e) >= b
  {
    PowPositive(b, e - 1);
    assert b * Pow(b, e - 1) >= b * 1;
  }

  lemma {:induction false} PowAdd(b: int, e1: nat, e2: nat)
    ensures Pow(b, e1 + e2) == Pow(b, e1) * Pow(b, e2)
  {
    if e1 > 0 {
      PowAdd(b, e1 - 1, e2);
      MulAssociates(b, Pow(b, e1 - 1), Pow(b, e2));
    }
  }

  lemma MulAssociates(a: int, b: int, c: int)
    ensures a * (b * c) == (a * b) * c
  {
  }

  /** Euclidean division is determined by its defining equation. */
  lemma DivModUnique(a: int, d: int, quot: int, rem: int)
    requires d > 0 && 0 <= rem < d && a == d * quot + rem
    ensures a / d == quot && a % d == rem
  {
    var q0, r0 := a / d, a % d;
    assert a == d * q0 + r0;
    assert d * (quot - q0) == r0 - rem;
    MultipleBound(d, quot - q0);
  }

  lemma MultipleBound(d: int, k: int)
    requires d > 0
    ensures k >= 1 ==> d * k >= d
    ensures k <= -1 ==> d * k <= -d
  {
    if k >= 1 {
      assert d * k == d + d * (k - 1);
    } else if k <= -1 {
      assert d * k == -d + d * (k + 1);
    }
  }

  lemma Distribute(a: int, b: int, c: int)
    ensures a * (b + c) == a * b + a * c
  {
  }

  lemma MulMonotone(c: int, a: int, b: int)
    requires c >= 0
    ensures a <= b ==> c * a <= c * b
    ensures a < b && c > 0 ==> c * a < c * b
  {
    assert c * b - c * a == c * (b - a);
    if a <= b {
      assert c * (b - a) >= 0;
    }
    if a < b && c > 0 {
      MultipleBound(c, b - a);
    }
  }

  /** Quotient and remainder of a non-negative dividend are non-negative, and the quotient shrinks. */
  lemma DivBounds(a: int, d: int)
    requires a >= 0 && d >= 1
    ensures 0 <= a % d < d && 0 <= a / d <= a
    ensures d >= 2 && a >= 1 ==> a / d < a
  {
    var q := a / d;
    MultipleBound(d, q);
    assert q >= 0;
    MulMonotone(q, 1, d);
    assert q * d == d * q;
  }

  /** `(x + k*d) % d == x % d` */
  lemma ModShift(x: int, k: int, d: int)
    requires d > 0
    ensures (x + k * d) % d == x % d
  {
    DivModUnique(x + k * d, d, x / d + k, x % d);
  }

  /**
   * The `%` of C and C++: the quotient is truncated toward zero, so the
   * remainder carries the sign of the dividend.
   */
  function CRem(a: int, b: int): (r: int)
    requires b > 0
    ensures (a - r) % b == 0
    ensures -b < r < b
    ensures a >= 0 ==> r >= 0
    ensures a < 0 ==> r <= 0
  {
    if a >= 0 then
      DivModUnique(a - a % b, b, a / b, 0);
      a % b
    else
      DivModUnique(a + (-a) % b, b, -((-a) / b), 0);
      -((-a) % b)
  }

  /** On non-negative operands the C++ remainder and Dafny's Euclidean `%` agree. */
  lemma CRemNonNegative(a: int, b: int)
    requires b > 0 && a >= 0
    ensures CRem(a, b) == a % b && 0 <= CRem(a, b) < b
  {
  }

  /** A digit is its own remainder. */
  lemma CRemSmall(a: int, b: int)
    requires 0 <= a < b
    ensures CRem(a, b) == a
  {
    DivModUnique(a, b, 0, a);
  }

  // ---------------------------------------------------------------------
  // Finite double sums Σ_{i<n} Σ_{j<m} F(i, j)
  // ---------------------------------------------------------------------

  /** Σ_{j<m} F(i, j) */
  function RowSum(F: (int, int) -> int, i: int, m: nat): int
  {
    if m == 0 then 0 else RowSum(F, i, m - 1) + F(i, m - 1)
  }

  /** Σ_{i<n} F(i, j) */
  function ColumnSum(F: (int, int) -> int, j: int, n: nat): int
  {
    if n == 0 then 0 else ColumnSum(F, j, n - 1) + F(n - 1, j)
  }

  /** Σ_{i<n} Σ_{j<m} F(i, j), accumulated row by row as a nested loop over i then j does. */
  function GridSum(F: (int, int) -> int, n: nat, m: nat): int
  {
    if n == 0 then 0 else GridSum(F, n - 1, m) + RowSum(F, n - 1, m)
  }

  /** The same double sum accumulated column by column. */
  function GridSumByColumns(F: (int, int) -> int, n: nat, m: nat): int
  {
    if m == 0 then 0 else GridSumByColumns(F, n, m - 1) + ColumnSum(F, m - 1, n)
  }

  lemma {:induction false} GridSumAddRow(F: (int, int) -> int, n: nat, m: nat)
    ensures GridSumByColumns(F, n + 1, m) == GridSumByColumns(F, n, m) + RowSum(F, n, m)
  {
    if m > 0 {
      GridSumAddRow(F, n, m - 1);
    }
  }

  /** A finite double sum does not depend on the order of summation. */
  lemma {:induction false} GridSumSwap(F: (int, int) -> int, n: nat, m: nat)
    ensures GridSum(F, n, m) == GridSumByColumns(F, n, m)
  {
    if n == 0 {
      GridSumByColumnsEmpty(F, m);
    } else {
      GridSumSwap(F, n - 1, m);
      GridSumAddRow(F, n - 1, m);
    }
  }

  lemma {:induction false} GridSumByColumnsEmpty(F: (int, int) -> int, m: nat)
    ensures GridSumByColumns(F, 0, m) == 0
  {
    if m > 0 {
      GridSumByColumnsEmpty(F, m - 1);
    }
  }

  lemma {:induction false} RowSumOfTranspose(F: (int, int) -> int, G: (int, int) -> int, i: int, m: nat)
    requires forall x, y :: G(x, y) == F(y, x)
    ensures RowSum(G, i, m) == ColumnSum(F, i, m)
  {
    if m > 0 {
      RowSumOfTranspose(F, G, i, m - 1);
    }
  }

  /** Summing the transposed terms over the transposed rectangle gives the same total. */
  lemma {:induction false} GridSumTranspose(F: (int, int) -> int, G: (int, int) -> int, n: nat, m: nat)
    requires forall x, y :: G(x, y) == F(y, x)
    ensures GridSum(G, m, n) == GridSum(F, n, m)
  {
    GridSumSwap(F, n, m);
    GridSumTransposeColumns(F, G, n, m);
  }

  lemma {:induction false} GridSumTransposeColumns(F: (int, int) -> int, G: (int, int) -> int, n: nat, m: nat)
    requires forall x, y :: G(x, y) == F(y, x)
    ensures GridSum(G, m, n) == GridSumByColumns(F, n, m)
  {
    if m > 0 {
      GridSumTransposeColumns(F, G, n, m - 1);
      RowSumOfTranspose(F, G, m - 1, n);
    }
  }

  lemma {:induction false} RowSumNonNegative(F: (int, int) -> int, i: int, m: nat)
    requires forall x, y :: F(x, y) >= 0
    ensures RowSum(F, i, m) >= 0
  {
    if m > 0 {
      RowSumNonNegative(F, i, m - 1);
    }
  }

  lemma {:induction false} GridSumNonNegative(F: (int, int) -> int, n: nat, m: nat)
    requires forall x, y :: F(x, y) >= 0
    ensures GridSum(F, n, m) >= 0
  {
    if n > 0 {
      GridSumNonNegative(F, n - 1, m);
      RowSumNonNegative(F, n - 1, m);
    }
  }

  lemma {:induction false} RowSumOnly(F: (int, int) -> int, i: int, m: nat, j0: int)
    requires forall y :: y != j0 ==> F(i, y) == 0
    ensures RowSum(F, i, m) == if 0 <= j0 < m then F(i, j0) else 0
  {
    if m > 0 {
      RowSumOnly(F, i, m - 1, j0);
    }
  }

  /** A double sum whose terms vanish outside one cell is that cell's term (or 0 when the cell lies outside). */
  lemma {:induction false} GridSumOnly(F: (int, int) -> int, n: nat, m: nat, i0: int, j0: int)
    requires forall x, y :: (x != i0 || y != j0) ==> F(x, y) == 0
    ensures GridSum(F, n, m) == if 0 <= i0 < n && 0 <= j0 < m then F(i0, j0) else 0
  {
    if n > 0 {
      GridSumOnly(F, n - 1, m, i0, j0);
      if n - 1 == i0 {
        RowSumOnly(F, n - 1, m, j0);
      } else {
        RowSumOnly(F, n - 1, m, -1);
      }
    }
  }
}

=== FILE: element_laws.dfy ===
/**
 * What the element operators promise on a field that `getField` built
 * successfully (`FieldLaws.Valid`): every operator stays inside the field,
 * only a zero divisor throws, the additive identities the tests assert
 * hold for every field, and the multiplicative facts that follow from the
 * builder's checks (identity, zero, reciprocals, square roots) hold too.
 */
module ElementLaws {
  import opened Wrappers
  import opened Errors
  import opened Arithmetic
  import opened Fields
  import opened FieldLaws
  import opened Elements

  /** `a` and `b` are elements of one built field. */
  ghost predicate Together(a: Element, b: Element)
  {
    Valid(a.gf) && b.gf == a.gf && Member(a) && Member(b)
  }

  /** The zero and the one of `gf` as elements. */
  function Zero(gf: Field): Element { Element(gf, 0) }
  function Unit(gf: Field): Element { Element(gf, 1) }

  /** Two elements of one built field are valid operands of every operator. */
  lemma ValidOperands(op: Op, a: Element, b: Element, sizeDebug: bool)
    requires Together(a, b)
    ensures Operands(op, a, b, sizeDebug)
  {
    if b.value > 0 {
      assert 0 < a.gf.neg[b.value] < a.gf.q;
      assert 0 < a.gf.inv[b.value] < a.gf.q;
    }
  }

  /** Every raw lookup of two elements of one built field lands in the field. */
  lemma LookupInField(op: Op, a: Element, b: Element)
    requires Together(a, b) && ((op == Div || op == Mod) ==> b.value != 0)
    ensures LookupDefined(op, a.gf, a.value, b.value)
    ensures 0 <= Lookup(op, a.gf, a.value, b.value) < a.gf.q
    ensures op == Mod ==> Lookup(op, a.gf, a.value, b.value) < b.value
  {
    ValidOperands(op, a, b, false);
    var gf, x, y := a.gf, a.value, b.value;
    match op
      case Add =>
        assert 0 <= gf.plus[y][x] < gf.q;
      case Sub =>
        assert 0 <= gf.plus[gf.neg[y]][x] < gf.q;
      case Mul =>
        assert 0 <= gf.times[y][x] < gf.q;
      case Div =>
        assert 0 <= gf.times[gf.inv[y]][x] < gf.q;
      case Mod =>
        CRemNonNegative(x, y);
  }

  /**
   * `a op b` on two elements of one built field: it throws only for a zero
   * divisor of `/` or `%`, and otherwise yields an element of the same field.
   */
  lemma BinaryInField(op: Op, a: Element, b: Element, sizeDebug: bool)
    requires Together(a, b)
    ensures Operands(op, a, b, sizeDebug)
    ensures Binary(op, a, b, sizeDebug).Success? <==> !((op == Div || op == Mod) && b.value == 0)
    ensures op == Div && b.value == 0 ==> Binary(op, a, b, sizeDebug) == Failure(DivideByZero)
    ensures op == Mod && b.value == 0 ==> Binary(op, a, b, sizeDebug) == Failure(ModuloByZero)
    ensures Binary(op, a, b, sizeDebug).Success? ==>
      Member(Binary(op, a, b, sizeDebug).value) && Binary(op, a, b, sizeDebug).value.gf == a.gf
  {
    ValidOperands(op, a, b, sizeDebug);
    if !((op == Div || op == Mod) && b.value == 0) {
      LookupInField(op, a, b);
    }
  }

  /** The result of `a op b` in a built field when the divisor is not zero. */
  function Combine(op: Op, a: Element, b: Element, sizeDebug: bool): (r: Element)
    requires Together(a, b) && ((op == Div || op == Mod) ==> b.value != 0)
    ensures Member(r) && r.gf == a.gf
    ensures Operands(op, a, b, sizeDebug) && Binary(op, a, b, sizeDebug) == Success(r)
  {
    BinaryInField(op, a, b, sizeDebug);
    Binary(op, a, b, sizeDebug).value
  }

  /** Each in-place form agrees with its binary form: same result, same errors, same field. */
  lemma CompoundMatchesBinary(op: Op, a: Element, b: Element, sizeDebug: bool)
    requires Operands(op, a, b, sizeDebug)
    ensures Binary(op, a, b, sizeDebug).Success? ==>
      Compound(op, a, b, sizeDebug) == Update(Binary(op, a, b, sizeDebug).value, Pass)
    ensures Binary(op, a, b, sizeDebug).Failure? && Binary(op, a, b, sizeDebug).error != InvalidValue ==>
      Compound(op, a, b, sizeDebug) == Update(a, Fail(Binary(op, a, b, sizeDebug).error))
    ensures Binary(op, a, b, sizeDebug) == Failure(InvalidValue) <==>
      Compound(op, a, b, sizeDebug).status.Pass? && !Member(Compound(op, a, b, sizeDebug).e)
  {
  }

  /** In a built field the in-place form never stores an invalid value. */
  lemma CompoundInField(op: Op, a: Element, b: Element, sizeDebug: bool)
    requires Together(a, b) && ((op == Div || op == Mod) ==> b.value != 0)
    ensures Operands(op, a, b, sizeDebug)
    ensures Compound(op, a, b, sizeDebug) == Update(Combine(op, a, b, sizeDebug), Pass)
  {
    CompoundMatchesBinary(op, a, b, sizeDebug);
  }

  // ---------------------------------------------------------------------
  // Addition and subtraction: an abelian group in every built field
  // ---------------------------------------------------------------------

  lemma AddCommutes(a: Element, b: Element, sizeDebug: bool)
    requires Together(a, b)
    ensures Combine(Add, a, b, sizeDebug) == Combine(Add, b, a, sizeDebug)
  {
    assert a.gf.plus[b.value][a.value] == a.gf.plus[a.value][b.value];
  }

  lemma AddAssociates(a: Element, b: Element, c: Element, sizeDebug: bool)
    requires Together(a, b) && Together(b, c)
    ensures Combine(Add, Combine(Add, a, b, sizeDebug), c, sizeDebug)
         == Combine(Add, a, Combine(Add, b, c, sizeDebug), sizeDebug)
  {
    var t, x, y, z := a.gf.plus, a.value, b.value, c.value;
    var xy, yz := t[y][x], t[z][y];
    assert Combine(Add, a, b, sizeDebug).value == xy;
    assert Combine(Add, b, c, sizeDebug).value == yz;
    assert xy == t[x][y] && yz == t[y][z];
    assert t[z][xy] == t[xy][z];
    assert AssociativeAt(t, x, y, z);
    assert t[yz][x] == t[x][yz];
  }

  /** `a + 0 == a` */
  lemma AddZero(a: Element, sizeDebug: bool)
    requires Together(a, Zero(a.gf))
    ensures Combine(Add, a, Zero(a.gf), sizeDebug) == a
  {
    assert a.gf.plus[0][a.value] == a.gf.plus[a.value][0] == a.value;
  }

  /** `negative()` never throws in a built field. */
  lemma NegativeInField(a: Element)
    requires Valid(a.gf) && Member(a)
    ensures Negative(a).Success? && Member(Negative(a).value)
  {
    if a.value > 0 {
      assert 0 < a.gf.neg[a.value] < a.gf.q;
    }
  }

  /** `a + (-a) == 0` */
  lemma AddNegative(a: Element, sizeDebug: bool)
    requires Valid(a.gf) && Member(a)
    ensures Negative(a).Success? && Together(a, Negative(a).value)
    ensures Combine(Add, a, Negative(a).value, sizeDebug) == Zero(a.gf)
  {
    NegativeInField(a);
    var t, x := a.gf.plus, a.value;
    if x == 0 {
      assert t[0][0] == 0;
    } else {
      assert At(t, a.gf.neg[x], x) == 0;
      assert t[a.gf.neg[x]][x] == t[x][a.gf.neg[x]];
    }
  }

  /** `-(-a) == a`: negatives are unique in a group. */
  lemma NegateTwice(a: Element)
    requires Valid(a.gf) && Member(a)
    ensures Negative(a).Success? && Negative(Negative(a).value).Success?
    ensures Negative(Negative(a).value).value == a
  {
    var b := Negative(a).value;
    AddNegative(a, false);
    var c := Negative(b).value;
    AddNegative(b, false);
    var t, x, y, z := a.gf.plus, a.value, b.value, c.value;
    assert t[y][x] == 0 && t[z][y] == 0;
    assert t[x][y] == 0 && t[y][z] == 0;
    calc {
      x;
      t[0][x];
      t[x][0];
      t[x][t[y][z]];
      { assert AssociativeAt(t, x, y, z); }
      t[t[x][y]][z];
      t[0][z];
      { assert t[z][0] == z; }
      z;
    }
  }

  /** `c - d == c + (-d)` */
  lemma SubIsAddNegative(c: Element, d: Element, sizeDebug: bool)
    requires Together(c, d)
    ensures Negative(d).Success? && Together(c, Negative(d).value)
    ensures Combine(Sub, c, d, sizeDebug) == Combine(Add, c, Negative(d).value, sizeDebug)
  {
    NegativeInField(d);
  }

  /** `(c - d) + d == c` and `d + (c - d) == c` */
  lemma SubAddCancel(c: Element, d: Element, sizeDebug: bool)
    requires Together(c, d)
    ensures Combine(Add, Combine(Sub, c, d, sizeDebug), d, sizeDebug) == c
    ensures Combine(Add, d, Combine(Sub, c, d, sizeDebug), sizeDebug) == c
  {
    SubIsAddNegative(c, d, sizeDebug);
    var nd := Negative(d).value;
    AddNegative(d, sizeDebug);
    AddCommutes(nd, d, sizeDebug);
    AddAssociates(c, nd, d, sizeDebug);
    AddZero(c, sizeDebug);
    AddCommutes(Combine(Sub, c, d, sizeDebug), d, sizeDebug);
  }

  /** `a - a == 0` */
  lemma SubSelf(a: Element, sizeDebug: bool)
    requires Valid(a.gf) && Member(a)
    ensures Together(a, a) && Combine(Sub, a, a, sizeDebug) == Zero(a.gf)
  {
    SubIsAddNegative(a, a, sizeDebug);
    AddNegative(a, sizeDebug);
  }

  // ---------------------------------------------------------------------
  // Multiplication and division
  // ---------------------------------------------------------------------

  lemma MulCommutes(a: Element, b: Element, sizeDebug: bool)
    requires Together(a, b)
    ensures Combine(Mul, a, b, sizeDebug) == Combine(Mul, b, a, sizeDebug)
  {
    assert a.gf.times[b.value][a.value] == a.gf.times[a.value][b.value];
  }

  /** `a * 0 == 0` and `a * 1 == a` */
  lemma MulZeroOne(a: Element, sizeDebug: bool)
    requires Valid(a.gf) && Member(a)
    ensures Together(a, Zero(a.gf)) && Combine(Mul, a, Zero(a.gf), sizeDebug) == Zero(a.gf)
    ensures Together(a, Unit(a.gf)) && Combine(Mul, a, Unit(a.gf), sizeDebug) == a
  {
    assert a.gf.times[0][a.value] == 0;
    assert a.gf.times[1][a.value] == a.value;
  }

  /** `inverse()` succeeds exactly for the non-zero elements of a built field. */
  lemma InverseInField(a: Element)
    requires Valid(a.gf) && Member(a)
    ensures Inverse(a).Success? <==> a.value != 0
    ensures Inverse(a).Success? ==> Member(Inverse(a).value) && Inverse(a).value.value != 0
  {
    if a.value > 0 {
      assert 0 < a.gf.inv[a.value] < a.gf.q;
    }
  }

  /** `a * inverse(a) == 1` for every non-zero `a`: what the reciprocal check guarantees. */
  lemma MulInverse(a: Element, sizeDebug: bool)
    requires Valid(a.gf) && Member(a) && a.value != 0
    ensures Inverse(a).Success? && Together(a, Inverse(a).value)
    ensures Combine(Mul, a, Inverse(a).value, sizeDebug) == Unit(a.gf)
  {
    InverseInField(a);
    var t, x := a.gf.times, a.value;
    assert At(t, a.gf.inv[x], x) == 1;
    assert t[a.gf.inv[x]][x] == t[x][a.gf.inv[x]];
  }

  /** `a / b == a * inverse(b)` for every non-zero `b`. */
  lemma DivIsMulInverse(a: Element, b: Element, sizeDebug: bool)
    requires Together(a, b) && b.value != 0
    ensures Inverse(b).Success? && Together(a, Inverse(b).value)
    ensures Combine(Div, a, b, sizeDebug) == Combine(Mul, a, Inverse(b).value, sizeDebug)
  {
    InverseInField(b);
  }

  /** `b / b == 1` for every non-zero `b`, as the tests assert of `A / A`. */
  lemma DivSelf(b: Element, sizeDebug: bool)
    requires Valid(b.gf) && Member(b) && b.value != 0
    ensures Together(b, b) && Combine(Div, b, b, sizeDebug) == Unit(b.gf)
  {
    DivIsMulInverse(b, b, sizeDebug);
    MulInverse(b, sizeDebug);
  }

  /** `a / 1 == a`: the reciprocal scan finds 1 as the reciprocal of 1. */
  lemma DivOne(a: Element, sizeDebug: bool)
    requires Valid(a.gf) && Member(a)
    ensures Together(a, Unit(a.gf)) && Combine(Div, a, Unit(a.gf), sizeDebug) == a
  {
    var gf := a.gf;
    assert At(gf.times, gf.inv[1], 1) == 1;
    assert gf.times[1][gf.inv[1]] == gf.inv[1];
    assert gf.times[1][a.value] == a.value;
  }

  /** `a % b` is the integer remainder of the stored values, below `b`'s value. */
  lemma ModRemainder(a: Element, b: Element, sizeDebug: bool)
    requires Together(a, b) && b.value != 0
    ensures Combine(Mod, a, b, sizeDebug).value == a.value % b.value
    ensures Combine(Mod, a, b, sizeDebug).value < b.value
  {
    CRemNonNegative(a.value, b.value);
  }

  /**
   * Without the size check, `a % b` with `b` from any field, even one larger
   * than `a`'s, is the integer remainder as an element of `a`'s field.
   */
  lemma ModAcrossFields(a: Element, b: Element)
    requires Member(a) && Member(b) && Shaped(a.gf) && b.value != 0
    ensures Operands(Mod, a, b, false)
    ensures Binary(Mod, a, b, false) == Success(Element(a.gf, a.value % b.value))
  {
    CRemNonNegative(a.value, b.value);
    if a.value < b.value {
      DivModUnique(a.value, b.value, 0, a.value);
    }
    assert a.value % b.value <= a.value;
  }

  /**
   * `%` and `%=` read no table, so they accept any stored values, including
   * ones `setValue` put out of range. `%=` stores the C++ remainder unchecked,
   * which keeps the sign of a negative value; `%` passes it through the
   * validating constructor.
   */
  lemma ModOfStoredValues(a: Element, b: Element)
    requires b.value != 0
    ensures Operands(Mod, a, b, false)
    ensures var m := if b.value < 0 then -b.value else b.value;
      Compound(Mod, a, b, false) == Update(Element(a.gf, CRem(a.value, m)), Pass)
    ensures a.value >= 0 && b.value > 0 ==> Binary(Mod, a, b, false) == New(Some(a.gf), a.value % b.value)
    ensures a.value < 0 && a.value % b.value != 0 ==>
      Compound(Mod, a, b, false).e.value < 0 && Binary(Mod, a, b, false) == Failure(InvalidValue)
  {
    if a.value >= 0 && b.value > 0 {
      CRemNonNegative(a.value, b.value);
    }
  }

  /** In `GF(4)`: `setValue(7)` then `% 3` gives the element 1, and `setValue(-5)` then `%= 3` stores -2. */
  lemma ModOfOutOfRangeExample(e: Element)
    requires e.gf.q == 4
    ensures Binary(Mod, SetValue(e, 7), Element(e.gf, 3), false) == Success(Element(e.gf, 1))
    ensures Compound(Mod, SetValue(e, -5), Element(e.gf, 3), false) == Update(Element(e.gf, -2), Pass)
  {
    ModOfStoredValues(SetValue(e, 7), Element(e.gf, 3));
    ModOfStoredValues(SetValue(e, -5), Element(e.gf, 3));
    assert CRem(7, 3) == 1 by { CRemNonNegative(7, 3); }
    assert CRem(-5, 3) == -2 by { CRemNonNegative(5, 3); }
  }

  // ---------------------------------------------------------------------
  // Square roots
  // ---------------------------------------------------------------------

  /**
   * `sqrt()` succeeds exactly when some element squares to `a`; it then
   * returns the largest such element, and its square is `a`.
   */
  lemma SqrtInField(a: Element, sizeDebug: bool)
    requires Valid(a.gf) && Member(a)
    ensures Sqrt(a).Success? <==> exists j :: 0 <= j < a.gf.q && At(a.gf.times, j, j) == a.value
    ensures Sqrt(a).Success? ==>
      && Together(Sqrt(a).value, Sqrt(a).value)
      && Combine(Mul, Sqrt(a).value, Sqrt(a).value, sizeDebug) == a
      && (forall j :: Sqrt(a).value.value < j < a.gf.q ==> At(a.gf.times, j, j) != a.value)
  {
    var gf, x := a.gf, a.value;
    assert -1 <= gf.root[x] < gf.q;
    if gf.root[x] >= 0 {
      assert At(gf.times, gf.root[x], gf.root[x]) == x;
    } else {
      forall j | 0 <= j < gf.q
        ensures At(gf.times, j, j) != x
      {
        assert gf.root[x] < j;
      }
    }
  }

  // ---------------------------------------------------------------------
  // Increment and decrement
  // ---------------------------------------------------------------------

  /** `++a` is `a += 1`, and `a++` yields the old value while making the same update. */
  lemma IncrementIsAddOne(a: Element, sizeDebug: bool)
    requires Valid(a.gf) && Member(a)
    ensures Together(a, Unit(a.gf))
    ensures PreIncrement(a).after == Combine(Add, a, Unit(a.gf), sizeDebug)
    ensures PostIncrement(a) == Step(a, Combine(Add, a, Unit(a.gf), sizeDebug))
  {
  }

  /** `--a` is `a -= 1`, and `a--` yields the old value while making the same update. */
  lemma DecrementIsSubOne(a: Element, sizeDebug: bool)
    requires Valid(a.gf) && Member(a)
    ensures Together(a, Unit(a.gf)) && 0 <= a.gf.neg[1] < a.gf.q
    ensures PreDecrement(a).after == Combine(Sub, a, Unit(a.gf), sizeDebug)
    ensures PostDecrement(a) == Step(a, Combine(Sub, a, Unit(a.gf), sizeDebug))
  {
    assert 0 < a.gf.neg[1] < a.gf.q;
  }

  /** `--` undoes `++`. */
  lemma DecrementUndoesIncrement(a: Element)
    requires Valid(a.gf) && Member(a)
    ensures Member(PreIncrement(a).after) && 0 <= a.gf.neg[1] < a.gf.q
    ensures PreDecrement(PreIncrement(a).after).after == a
  {
    IncrementIsAddOne(a, false);
    var b := PreIncrement(a).after;
    DecrementIsSubOne(b, false);
    SubAddCancel(b, Unit(a.gf), false);
    var one := Unit(a.gf);
    assert Combine(Sub, b, one, false) == Combine(Sub, Combine(Add, a, one, false), one, false);
    AddSubCancel(a, one, false);
  }

  /** `(c + d) - d == c` */
  lemma AddSubCancel(c: Element, d: Element, sizeDebug: bool)
    requires Together(c, d)
    ensures Combine(Sub, Combine(Add, c, d, sizeDebug), d, sizeDebug) == c
  {
    var cd := Combine(Add, c, d, sizeDebug);
    SubIsAddNegative(cd, d, sizeDebug);
    var nd := Negative(d).value;
    AddNegative(d, sizeDebug);
    AddAssociates(c, d, nd, sizeDebug);
    AddZero(c, sizeDebug);
  }

  // ---------------------------------------------------------------------
  // Scalars
  // ---------------------------------------------------------------------

  /** `k + b == b + k` and `k * b == b * k` for every integer `k`, in range or not. */
  lemma ScalarCommutes(k: int, b: Element, sizeDebug: bool)
    requires Valid(b.gf) && Member(b)
    ensures 0 <= k < b.gf.q ==> Together(b, Element(b.gf, k))
    ensures ScalarLeft(Add, k, b, sizeDebug) == ScalarRight(Add, b, k, sizeDebug)
    ensures ScalarLeft(Mul, k, b, sizeDebug) == ScalarRight(Mul, b, k, sizeDebug)
  {
    if 0 <= k < b.gf.q {
      var kb := Element(b.gf, k);
      AddCommutes(kb, b, sizeDebug);
      MulCommutes(kb, b, sizeDebug);
    }
  }

  // ---------------------------------------------------------------------
  // Comparison
  // ---------------------------------------------------------------------

  /** Within one field `==` is equality of elements, and `!=` its negation. */
  lemma EqWithinField(a: Element, b: Element)
    requires a.gf == b.gf
    ensures Eq(a, b) <==> a == b
    ensures Ne(a, b) <==> a != b
  {
  }

  /**
   * `==` compares only the field size and the value: equal values in two
   * fields of the same size compare equal whatever their tables hold.
   */
  lemma EqAcrossFields(f: Field, g: Field, v: int)
    requires f.q == g.q && f.times != g.times
    ensures Element(f, v) != Element(g, v)
    ensures Eq(Element(f, v), Element(g, v)) && !Ne(Element(f, v), Element(g, v))
  {
  }
}

=== FILE: elements.dfy ===
/**
 * `Element` of include/galois++/element.h: a value bound to a field. Every
 * operator is a lookup in the field's tables; the operators that return a
 * new element pass the looked-up value through the validating constructor,
 * while the in-place forms store it unchecked. A thrown `domain_error` or
 * `runtime_error` becomes a `Failure`/`Fail`.
 */
module Elements {
  import opened Wrappers
  import opened Errors
  import opened Arithmetic
  import opened Fields

  /** A value together with the field it belongs to. */
  datatype Element = Element(gf: Field, value: int)

  /** An in-place operation: the element afterwards and whether the statement threw. */
  datatype Update = Update(e: Element, status: Outcome<Error>)

  /** `++x`/`x++`/`--x`/`x--`: the value of the expression and the element afterwards. */
  datatype Step = Step(result: Element, after: Element)

  /** `isValid(v)`: the field pointer is non-null and `0 <= v < q`. */
  predicate IsValid(gf: Option<Field>, v: int)
  {
    v >= 0 && gf.Some? && v < gf.value.q
  }

  /** `e` holds a value of its own field. */
  predicate Member(e: Element)
  {
    IsValid(Some(e.gf), e.value)
  }

  /** The constructor `Element(gf, v)`: it throws unless `v` is a value of a non-null field. */
  function New(gf: Option<Field>, v: int): (r: Result<Element, Error>)
    ensures r.Success? <==> gf.Some? && 0 <= v < gf.value.q
    ensures r.Success? ==> r.value.gf == gf.value && r.value.value == v && Member(r.value)
    ensures r.Failure? ==> r.error == InvalidValue
  {
    if IsValid(gf, v) then Success(Element(gf.value, v)) else Failure(InvalidValue)
  }

  /** `e = v`: stores `v` when it is a value of `e`'s field, and otherwise throws with `e` unchanged. */
  function Assign(e: Element, v: int): (r: Update)
    ensures r.status.Pass? <==> 0 <= v < e.gf.q
    ensures r.status.Pass? ==> r.e == Element(e.gf, v) && Member(r.e)
    ensures r.status.Fail? ==> r.e == e && r.status.error == InvalidValue
  {
    if IsValid(Some(e.gf), v) then Update(Element(e.gf, v), Pass) else Update(e, Fail(InvalidValue))
  }

  /** `setValue(v)`: stores `v` without any check, so the element may leave its field's range. */
  function SetValue(e: Element, v: int): (r: Element)
    ensures r.gf == e.gf && r.value == v
    ensures Member(r) <==> Assign(e, v).status.Pass?
    ensures Member(r) ==> r == Assign(e, v).e
  {
    Element(e.gf, v)
  }

  /**
   * `makeValid()` as written: the C++ remainder by `q`. A non-negative value
   * lands in `[0, q)`, but a negative one keeps its sign.
   */
  function MakeValidAsWritten(e: Element): (r: Element)
    requires e.gf.q > 0
    ensures r.gf == e.gf && (e.value - r.value) % e.gf.q == 0 && -e.gf.q < r.value < e.gf.q
    ensures e.value >= 0 ==> Member(r)
    ensures e.value < 0 ==> r.value <= 0
  {
    Element(e.gf, CRem(e.value, e.gf.q))
  }

  /** A negative value that is not a multiple of `q` is still invalid after `makeValid()` as written. */
  lemma MakeValidAsWrittenKeepsNegatives(e: Element)
    requires e.gf.q > 0 && e.value < 0 && e.value % e.gf.q != 0
    ensures !Member(MakeValidAsWritten(e))
  {
    var r := MakeValidAsWritten(e).value;
    assert r <= 0 && (e.value - r) % e.gf.q == 0;
  }

  /** `makeValid()` as its comment intends: the representative of the value modulo `q` in `[0, q)`. */
  function MakeValid(e: Element): (r: Element)
    requires e.gf.q > 0
    ensures Member(r) && r.gf == e.gf && (e.value - r.value) % e.gf.q == 0
  {
    var q := e.gf.q;
    DivModUnique(e.value - e.value % q, q, e.value / q, 0);
    Element(e.gf, e.value % q)
  }

  /** `makeValid()` leaves an element that already holds a value of its field alone. */
  lemma MakeValidKeepsMembers(e: Element)
    requires Member(e)
    ensures MakeValid(e) == e
  {
    DivModUnique(e.value, e.gf.q, 0, e.value);
  }

  /** The two agree on every value `setValue` can store without a sign. */
  lemma MakeValidAgrees(e: Element)
    requires e.gf.q > 0 && e.value >= 0
    ensures MakeValidAsWritten(e) == MakeValid(e)
  {
    CRemNonNegative(e.value, e.gf.q);
  }

  // ---------------------------------------------------------------------
  // Binary operators
  // ---------------------------------------------------------------------

  datatype Op = Add | Sub | Mul | Div | Mod

  /**
   * The unchecked reads of `x op y` stay inside the field's vectors and
   * tables: for `+`, `-`, `*` and `/` both `x` and `y` index a table, `-`
   * also reads `neg[y]` and `/` reads `inv[y]` when `y` is not zero. `%`
   * reads no table, so it accepts any stored values.
   */
  predicate LookupDefined(op: Op, gf: Field, x: int, y: int)
  {
    op == Mod
    || (Shaped(gf) && 0 <= x < gf.q && 0 <= y < gf.q
        && (op == Sub ==> 0 <= gf.neg[y] < gf.q)
        && (op == Div && y != 0 ==> 0 <= gf.inv[y] < gf.q))
  }

  /**
   * The raw value of `x op y` in `gf`: `plus(x, y)`, `plus(x, neg[y])`,
   * `times(x, y)`, `times(x, inv[y])`, or the C++ remainder `x % y`, which
   * has the sign of `x` and is the same for `y` and `-y`.
   */
  function Lookup(op: Op, gf: Field, x: int, y: int): (r: int)
    requires LookupDefined(op, gf, x, y)
    requires op == Div || op == Mod ==> y != 0
    ensures op == Mod ==> var m := if y < 0 then -y else y;
      (x - r) % m == 0 && -m < r < m && (x >= 0 ==> r >= 0) && (x < 0 ==> r <= 0)
    ensures op == Mod && x >= 0 && y > 0 ==> r == x % y
  {
    match op
      case Add => At(gf.plus, x, y)
      case Sub => At(gf.plus, x, gf.neg[y])
      case Mul => At(gf.times, x, y)
      case Div => At(gf.times, x, gf.inv[y])
      case Mod => CRem(x, if y < 0 then -y else y)
  }

  /** The checks every operator makes before its lookup, in the source's order. */
  function Precheck(op: Op, a: Element, b: Element, sizeDebug: bool): (r: Option<Error>)
    ensures r == Some(IncompatibleFields) <==> sizeDebug && a.gf.q != b.gf.q
    ensures r == Some(DivideByZero) <==> !(sizeDebug && a.gf.q != b.gf.q) && op == Div && b.value == 0
    ensures r == Some(ModuloByZero) <==> !(sizeDebug && a.gf.q != b.gf.q) && op == Mod && b.value == 0
    ensures r.None? <==> !(sizeDebug && a.gf.q != b.gf.q) && !((op == Div || op == Mod) && b.value == 0)
  {
    if sizeDebug && a.gf.q != b.gf.q then Some(IncompatibleFields)
    else if op == Div && b.value == 0 then Some(DivideByZero)
    else if op == Mod && b.value == 0 then Some(ModuloByZero)
    else None
  }

  /**
   * What the source needs of the operands of `a op b`: unless the size check
   * under `GF_SIZE_DEBUG` rejects them, the reads of the operator stay inside
   * `a`'s tables. Nothing else is asked of the stored values, which
   * `setValue` may have put out of range.
   */
  predicate Operands(op: Op, a: Element, b: Element, sizeDebug: bool)
  {
    (sizeDebug && a.gf.q != b.gf.q) || LookupDefined(op, a.gf, a.value, b.value)
  }

  /**
   * `a + b`, `a - b`, `a * b`, `a / b`, `a % b`: the checks, then the lookup
   * in `a`'s field through the validating constructor.
   */
  function Binary(op: Op, a: Element, b: Element, sizeDebug: bool): (r: Result<Element, Error>)
    requires Operands(op, a, b, sizeDebug)
    ensures r.Failure? && r.error != InvalidValue ==> Precheck(op, a, b, sizeDebug) == Some(r.error)
    ensures r.Success? <==> Precheck(op, a, b, sizeDebug).None? && 0 <= Lookup(op, a.gf, a.value, b.value) < a.gf.q
    ensures r.Success? ==> r.value == Element(a.gf, Lookup(op, a.gf, a.value, b.value))
  {
    match Precheck(op, a, b, sizeDebug)
      case Some(e) => Failure(e)
      case None => New(Some(a.gf), Lookup(op, a.gf, a.value, b.value))
  }

  /**
   * `a += b`, `a -= b`, `a *= b`, `a /= b`, `a %= b`: the same checks, then
   * the looked-up value is stored without validation.
   */
  function Compound(op: Op, a: Element, b: Element, sizeDebug: bool): (r: Update)
    requires Operands(op, a, b, sizeDebug)
    ensures r.status.Fail? ==> r.e == a && Precheck(op, a, b, sizeDebug) == Some(r.status.error)
    ensures r.status.Pass? ==> r.e.gf == a.gf
  {
    match Precheck(op, a, b, sizeDebug)
      case Some(e) => Update(a, Fail(e))
      case None => Update(Element(a.gf, Lookup(op, a.gf, a.value, b.value)), Pass)
  }

  /** `a op k` for an integer `k`: `k` is first made an element of `a`'s field. */
  function ScalarRight(op: Op, a: Element, k: int, sizeDebug: bool): (r: Result<Element, Error>)
    requires 0 <= k < a.gf.q ==> LookupDefined(op, a.gf, a.value, k)
    ensures !(0 <= k < a.gf.q) ==> r == Failure(InvalidValue)
    ensures 0 <= k < a.gf.q ==> r == Binary(op, a, Element(a.gf, k), sizeDebug)
  {
    match New(Some(a.gf), k)
      case Failure(e) => Failure(e)
      case Success(kb) => Binary(op, a, kb, sizeDebug)
  }

  /** `a op= k` for an integer `k`: an out-of-range `k` throws before `a` is touched. */
  function CompoundScalar(op: Op, a: Element, k: int, sizeDebug: bool): (r: Update)
    requires 0 <= k < a.gf.q ==> LookupDefined(op, a.gf, a.value, k)
    ensures !(0 <= k < a.gf.q) ==> r == Update(a, Fail(InvalidValue))
    ensures 0 <= k < a.gf.q ==> r == Compound(op, a, Element(a.gf, k), sizeDebug)
  {
    match New(Some(a.gf), k)
      case Failure(e) => Update(a, Fail(e))
      case Success(kb) => Compound(op, a, kb, sizeDebug)
  }

  /** `k op b` for an integer `k`: `k` is first made an element of `b`'s field. */
  function ScalarLeft(op: Op, k: int, b: Element, sizeDebug: bool): (r: Result<Element, Error>)
    requires 0 <= k < b.gf.q ==> LookupDefined(op, b.gf, k, b.value)
    ensures !(0 <= k < b.gf.q) ==> r == Failure(InvalidValue)
    ensures 0 <= k < b.gf.q ==> r == Binary(op, Element(b.gf, k), b, sizeDebug)
  {
    match New(Some(b.gf), k)
      case Failure(e) => Failure(e)
      case Success(kb) => Binary(op, kb, b, sizeDebug)
  }

  // ---------------------------------------------------------------------
  // Increment and decrement
  // ---------------------------------------------------------------------

  /** `++a`: the value becomes `plus(v, 1)`, unchecked; the expression is the updated element. */
  function PreIncrement(a: Element): (s: Step)
    requires Member(a) && Shaped(a.gf) && 1 < a.gf.q
    ensures s.result == s.after && s.after.gf == a.gf
    ensures Compound(Add, a, Element(a.gf, 1), false) == Update(s.after, Pass)
  {
    var b := Element(a.gf, At(a.gf.plus, a.value, 1));
    Step(b, b)
  }

  /** `a++`: the same update; the expression is the element as it was. */
  function PostIncrement(a: Element): (s: Step)
    requires Member(a) && Shaped(a.gf) && 1 < a.gf.q
    ensures s.result == a && s.after == PreIncrement(a).after
  {
    Step(a, PreIncrement(a).after)
  }

  /** `--a`: the value becomes `plus(v, neg[1])`, unchecked; the expression is the updated element. */
  function PreDecrement(a: Element): (s: Step)
    requires Member(a) && Shaped(a.gf) && 1 < a.gf.q && 0 <= a.gf.neg[1] < a.gf.q
    ensures s.result == s.after && s.after.gf == a.gf
    ensures Compound(Sub, a, Element(a.gf, 1), false) == Update(s.after, Pass)
  {
    var b := Element(a.gf, At(a.gf.plus, a.value, a.gf.neg[1]));
    Step(b, b)
  }

  /** `a--`: the same update; the expression is the element as it was. */
  function PostDecrement(a: Element): (s: Step)
    requires Member(a) && Shaped(a.gf) && 1 < a.gf.q && 0 <= a.gf.neg[1] < a.gf.q
    ensures s.result == a && s.after == PreDecrement(a).after
  {
    Step(a, PreDecrement(a).after)
  }

  // ---------------------------------------------------------------------
  // sqrt, negative, inverse
  // ---------------------------------------------------------------------

  /** `sqrt()`: `root[v]` through the validating constructor, so a value with no root (`-1`) throws. */
  function Sqrt(a: Element): (r: Result<Element, Error>)
    requires Member(a) && Shaped(a.gf)
    ensures r.Success? <==> 0 <= a.gf.root[a.value] < a.gf.q
    ensures r.Success? ==> r.value == Element(a.gf, a.gf.root[a.value])
    ensures r.Failure? ==> r.error == InvalidValue
  {
    New(Some(a.gf), a.gf.root[a.value])
  }

  /** `negative()` and unary `-`: `neg[v]` through the validating constructor. */
  function Negative(a: Element): (r: Result<Element, Error>)
    requires Member(a) && Shaped(a.gf)
    ensures r.Success? <==> 0 <= a.gf.neg[a.value] < a.gf.q
    ensures r.Success? ==> r.value == Element(a.gf, a.gf.neg[a.value])
    ensures r.Failure? ==> r.error == InvalidValue
  {
    New(Some(a.gf), a.gf.neg[a.value])
  }

  /** `inverse()`: `inv[v]` through the validating constructor, so `inverse()` of 0 (`inv[0] == -1`) throws. */
  function Inverse(a: Element): (r: Result<Element, Error>)
    requires Member(a) && Shaped(a.gf)
    ensures r.Success? <==> 0 <= a.gf.inv[a.value] < a.gf.q
    ensures r.Success? ==> r.value == Element(a.gf, a.gf.inv[a.value])
    ensures r.Failure? ==> r.error == InvalidValue
  {
    New(Some(a.gf), a.gf.inv[a.value])
  }

  // ---------------------------------------------------------------------
  // Comparison
  // ---------------------------------------------------------------------

  /** `a == b`: the fields have the same size and the values agree; the tables are not compared. */
  function Eq(a: Element, b: Element): (r: bool)
    ensures a.gf == b.gf ==> (r <==> a == b)
    ensures a.gf.q == b.gf.q && a.value == b.value ==> r
    ensures a.gf.q != b.gf.q ==> !r
    ensures r ==> a.value == b.value
  {
    a.gf.q == b.gf.q && a.value == b.value
  }

  /** `a != b`. */
  function Ne(a: Element, b: Element): (r: bool)
    ensures a.gf == b.gf ==> (r <==> a != b)
    ensures a.gf.q == b.gf.q && a.value == b.value ==> !r
    ensures a.gf.q != b.gf.q ==> r
    ensures a.value != b.value ==> r
  {
    !Eq(a, b)
  }
}

=== FILE: field_laws.dfy ===
/**
 * What `prepare` guarantees about the tables it builds. Addition is
 * digit-wise modulo `p`, so the additive group laws hold for every field it
 * builds; of multiplication only what the code itself enforces is proved
 * (commutativity, the zero and one rows, and the reciprocal check), since
 * the rest rests on the catalog polynomial being irreducible.
 */
module FieldLaws {
  import opened Wrappers
  import opened Errors
  import opened Arithmetic
  import opened PrimePowers
  import opened Polynomials
  import opened PolyProduct
  import opened Fields

  /** The `plus` table `prepare` builds for `GF(p^n)`. */
  function Plus(p: int, n: nat): (t: seq<seq<int>>)
    requires p >= 2 && n >= 1
    ensures IsTable(t, Pow(p, n), Pow(p, n))
  {
    PlusTable(p, n, PolyTable(p, n))
  }

  /** The `times` table `prepare` builds for `GF(p^n)` with catalog vector `xton`. */
  function Times(p: int, n: nat, xton: seq<int>): (t: seq<seq<int>>)
    requires p >= 2 && n >= 1 && |xton| >= n
    ensures IsTable(t, Pow(p, n), Pow(p, n))
  {
    TimesTable(p, n, xton, PolyTable(p, n))
  }

  // ---------------------------------------------------------------------
  // Digit-wise sums
  // ---------------------------------------------------------------------

  lemma DigitsNonNegative(d: seq<int>, p: int)
    requires IsDigits(d, p)
    ensures NonNegative(d)
  {
  }

  lemma {:induction false} EvalZeros(n: nat, p: int)
    ensures Eval(Zeros(n), p) == 0
  {
    if n > 0 {
      assert Zeros(n)[1..] == Zeros(n - 1);
      EvalZeros(n - 1, p);
    }
  }

  /** Taking a remainder early does not change the remainder of a sum of non-negative terms. */
  lemma CRemAddLeft(x: int, y: int, p: int)
    requires p >= 1 && x >= 0 && y >= 0
    ensures CRem(CRem(x, p) + y, p) == CRem(x + y, p)
  {
    DivBounds(x, p);
    assert CRem(x, p) + y == (x + y) + (-(x / p)) * p;
    ModShift(x + y, -(x / p), p);
  }

  lemma PolySumCommutes(p: int, n: nat, a: seq<int>, b: seq<int>)
    requires p >= 1 && |a| == n && |b| == n
    ensures PolySum(p, n, a, b) == PolySum(p, n, b, a)
  {
    forall k | 0 <= k < n
      ensures PolySum(p, n, a, b)[k] == PolySum(p, n, b, a)[k]
    {
      assert a[k] + b[k] == b[k] + a[k];
    }
  }

  lemma PolySumZero(p: int, n: nat, d: seq<int>)
    requires p >= 1 && |d| == n && IsDigits(d, p)
    ensures PolySum(p, n, d, Zeros(n)) == d
  {
    forall k | 0 <= k < n
      ensures PolySum(p, n, d, Zeros(n))[k] == d[k]
    {
      CRemSmall(d[k], p);
    }
  }

  lemma PolySumAssociates(p: int, n: nat, a: seq<int>, b: seq<int>, c: seq<int>)
    requires p >= 1 && |a| == n && |b| == n && |c| == n
    requires IsDigits(a, p) && IsDigits(b, p) && IsDigits(c, p)
    ensures PolySum(p, n, PolySum(p, n, a, b), c) == PolySum(p, n, a, PolySum(p, n, b, c))
  {
    var ab, bc := PolySum(p, n, a, b), PolySum(p, n, b, c);
    var left, right := PolySum(p, n, ab, c), PolySum(p, n, a, bc);
    forall k | 0 <= k < n
      ensures left[k] == right[k]
    {
      CRemSumAssociates(a[k], b[k], c[k], p, ab[k], bc[k]);
    }
  }

  /** One digit of `PolySumAssociates`: the remainder of a sum of three may be taken after either pair. */
  lemma CRemSumAssociates(x: int, y: int, z: int, p: int, xy: int, yz: int)
    requires p >= 1 && x >= 0 && y >= 0 && z >= 0
    requires xy == CRem(x + y, p) && yz == CRem(y + z, p)
    ensures CRem(xy + z, p) == CRem(x + yz, p)
  {
    CRemAddLeft(x + y, z, p);
    CRemAddLeft(y + z, x, p);
    assert CRem(y + z, p) + x == x + CRem(y + z, p);
    assert (y + z) + x == (x + y) + z;
  }

  /** The digit-wise negative `(p - d[k]) mod p`. */
  function NegDigits(p: int, d: seq<int>): (e: seq<int>)
    requires p >= 1 && IsDigits(d, p)
    ensures |e| == |d| && IsDigits(e, p)
  {
    seq(|d|, k requires 0 <= k < |d| => CRem(p - d[k], p))
  }

  /** A digit vector plus its digit-wise negative is the zero vector. */
  lemma PolySumNeg(p: int, n: nat, d: seq<int>)
    requires p >= 1 && |d| == n && IsDigits(d, p)
    ensures PolySum(p, n, d, NegDigits(p, d)) == Zeros(n)
  {
    var e := NegDigits(p, d);
    forall k | 0 <= k < n
      ensures PolySum(p, n, d, e)[k] == 0
    {
      CRemAddLeft(p - d[k], d[k], p);
      assert d[k] + e[k] == e[k] + d[k];
      DivModUnique(p, p, 1, 0);
    }
  }

  // ---------------------------------------------------------------------
  // Entries of plus and times
  // ---------------------------------------------------------------------

  /** Each `plus` entry is an element, and its digits are the digit-wise sum of the operands' digits. */
  lemma PlusEntry(p: int, n: nat, i: int, j: int)
    requires p >= 2 && n >= 1 && 0 <= i < Pow(p, n) && 0 <= j < Pow(p, n)
    ensures 0 <= Plus(p, n)[i][j] < Pow(p, n)
    ensures ToDigits(Plus(p, n)[i][j], p, n) == PolySum(p, n, ToDigits(i, p, n), ToDigits(j, p, n))
  {
    var a, b := ToDigits(i, p, n), ToDigits(j, p, n);
    DigitsNonNegative(a, p);
    DigitsNonNegative(b, p);
    var s := PolySum(p, n, a, b);
    assert Plus(p, n)[i][j] == Poly2Int(p, n, s);
    ToDigitsEval(s, p);
  }

  /** With a non-negative catalog vector each `times` entry is an element, with the product's digits. */
  lemma TimesEntry(p: int, n: nat, xton: seq<int>, i: int, j: int)
    requires p >= 2 && n >= 1 && |xton| >= n && NonNegative(xton)
    requires 0 <= i < Pow(p, n) && 0 <= j < Pow(p, n)
    ensures 0 <= Times(p, n, xton)[i][j] < Pow(p, n)
    ensures ToDigits(Times(p, n, xton)[i][j], p, n) == PolyProd(p, n, xton, ToDigits(i, p, n), ToDigits(j, p, n))
  {
    var a, b := ToDigits(i, p, n), ToDigits(j, p, n);
    DigitsNonNegative(a, p);
    DigitsNonNegative(b, p);
    var s := PolyProd(p, n, xton, a, b);
    assert Times(p, n, xton)[i][j] == Poly2Int(p, n, s);
    ToDigitsEval(s, p);
  }

  /** `plus(j, i) == plus(i, j)`. */
  lemma PlusSymmetric(p: int, n: nat, i: int, j: int)
    requires p >= 2 && n >= 1 && 0 <= i < Pow(p, n) && 0 <= j < Pow(p, n)
    ensures Plus(p, n)[i][j] == Plus(p, n)[j][i]
  {
    PolySumCommutes(p, n, ToDigits(i, p, n), ToDigits(j, p, n));
  }

  /** 0 is the additive identity: `plus(0, i) == i`. */
  lemma PlusZero(p: int, n: nat, i: int)
    requires p >= 2 && n >= 1 && 0 <= i < Pow(p, n)
    ensures Plus(p, n)[i][0] == i
  {
    PowPositive(p, n);
    PlusEntry(p, n, i, 0);
    ZerosAreDigitsOfZero(p, n);
    PolySumZero(p, n, ToDigits(i, p, n));
    ToDigitsInjective(Plus(p, n)[i][0], i, p, n);
  }

  /** `plus` is associative. */
  lemma PlusAssociative(p: int, n: nat, a: int, b: int, c: int)
    requires p >= 2 && n >= 1 && 0 <= a < Pow(p, n) && 0 <= b < Pow(p, n) && 0 <= c < Pow(p, n)
    ensures 0 <= Plus(p, n)[a][b] < Pow(p, n) && 0 <= Plus(p, n)[b][c] < Pow(p, n)
    ensures Plus(p, n)[Plus(p, n)[a][b]][c] == Plus(p, n)[a][Plus(p, n)[b][c]]
  {
    var t := Plus(p, n);
    PlusEntry(p, n, a, b);
    PlusEntry(p, n, b, c);
    var ab, bc := t[a][b], t[b][c];
    PlusEntry(p, n, ab, c);
    PlusEntry(p, n, a, bc);
    PolySumAssociates(p, n, ToDigits(a, p, n), ToDigits(b, p, n), ToDigits(c, p, n));
    ToDigitsInjective(t[ab][c], t[a][bc], p, n);
  }

  /** Every element has a negative, and a nonzero element a nonzero one. */
  lemma NegativeExists(p: int, n: nat, i: int) returns (j: int)
    requires p >= 2 && n >= 1 && 0 <= i < Pow(p, n)
    ensures 0 <= j < Pow(p, n) && Plus(p, n)[i][j] == 0
    ensures i > 0 ==> j > 0
  {
    var d := ToDigits(i, p, n);
    var e := NegDigits(p, d);
    j := Eval(e, p);
    EvalRange(e, p);
    ToDigitsEval(e, p);
    PlusEntry(p, n, i, j);
    PolySumNeg(p, n, d);
    PowPositive(p, n);
    ZerosAreDigitsOfZero(p, n);
    ToDigitsInjective(Plus(p, n)[i][j], 0, p, n);
    if j == 0 {
      PlusZero(p, n, i);
    }
  }

  /** `times` is symmetric: `times(j, i) == times(i, j)`. */
  lemma TimesSymmetric(p: int, n: nat, xton: seq<int>, i: int, j: int)
    requires p >= 2 && n >= 1 && |xton| >= n && 0 <= i < Pow(p, n) && 0 <= j < Pow(p, n)
    ensures Times(p, n, xton)[i][j] == Times(p, n, xton)[j][i]
  {
    PolyProdSymmetric(p, n, xton, ToDigits(i, p, n), ToDigits(j, p, n));
  }

  /** Row 0 of `times` is zero. */
  lemma TimesZero(p: int, n: nat, xton: seq<int>, j: int)
    requires p >= 2 && n >= 1 && |xton| >= n && 0 <= j < Pow(p, n)
    ensures Times(p, n, xton)[0][j] == 0
  {
    PowPositive(p, n);
    ZerosAreDigitsOfZero(p, n);
    PolyProdZero(p, n, xton, ToDigits(j, p, n));
    EvalZeros(n, p);
  }

  lemma DigitsOfOne(p: int, n: nat)
    requires p >= 2 && n >= 1
    ensures ToDigits(1, p, n) == One(n)
  {
    DivModUnique(1, p, 0, 1);
    ZerosAreDigitsOfZero(p, n - 1);
  }

  /** Row 1 of `times` is the identity: `times(j, 1) == j`. */
  lemma TimesOne(p: int, n: nat, xton: seq<int>, j: int)
    requires p >= 2 && n >= 1 && |xton| >= n && 0 <= j < Pow(p, n)
    ensures Times(p, n, xton)[1][j] == j
  {
    PowAtLeastBase(p, n);
    DigitsOfOne(p, n);
    PolyProdOne(p, n, xton, ToDigits(j, p, n));
    EvalToDigits(j, p, n);
  }

  lemma DigitsOfPrimeElement(p: int, i: int)
    requires p >= 2 && 0 <= i < p
    ensures ToDigits(i, p, 1) == [i]
  {
    DivModUnique(i, p, 0, i);
  }

  /** In one digit, a digit-wise sum is the sum modulo `p`. */
  lemma PrimeDigitSum(p: int, i: int, j: int, x: int)
    requires p >= 2 && 0 <= i < p && 0 <= j < p
    requires [x] == PolySum(p, 1, [i], [j])
    ensures x == (i + j) % p
  {
    PolySumOneDigit(p, i, j);
    assert x == [x][0];
    CRemNonNegative(i + j, p);
  }

  /** A prime field (`n == 1`) adds its elements modulo `p`. */
  lemma PrimeFieldPlus(p: int, i: int, j: int)
    requires p >= 2 && 0 <= i < p && 0 <= j < p
    ensures Pow(p, 1) == p && Plus(p, 1)[i][j] == (i + j) % p
  {
    assert Pow(p, 1) == p;
    PlusEntry(p, 1, i, j);
    var x := Plus(p, 1)[i][j];
    DigitsOfPrimeElement(p, i);
    DigitsOfPrimeElement(p, j);
    DigitsOfPrimeElement(p, x);
    PrimeDigitSum(p, i, j, x);
  }

  /** A prime field (`n == 1`) multiplies its elements modulo `p`, whatever its catalog vector. */
  lemma PrimeFieldTimes(p: int, xton: seq<int>, i: int, j: int)
    requires p >= 2 && |xton| >= 1 && NonNegative(xton) && 0 <= i < p && 0 <= j < p
    ensures Pow(p, 1) == p && Times(p, 1, xton)[i][j] == (i * j) % p
  {
    assert Pow(p, 1) == p;
    DigitsOfPrimeElement(p, i);
    DigitsOfPrimeElement(p, j);
    TimesEntry(p, 1, xton, i, j);
    var x := Times(p, 1, xton)[i][j];
    DigitsOfPrimeElement(p, x);
    PolyProdPrime(p, xton, i, j);
    var m := i * j;
    MulMonotone(i, 0, j);
    CRemNonNegative(m, p);
    assert [x] == [CRem(m, p)];
  }

  // ---------------------------------------------------------------------
  // The scans
  // ---------------------------------------------------------------------

  /** The last match is positive exactly when some positive index matches. */
  lemma LastMatchPositive(row: seq<int>, v: int)
    ensures LastMatch(row, v) > 0 <==> exists j :: 0 < j < |row| && row[j] == v
  {
    var r := LastMatch(row, v);
    if j :| 0 < j < |row| && row[j] == v {
      assert r >= j;
    }
  }

  /** A value held at exactly one index is found there. */
  lemma LastMatchOnly(row: seq<int>, v: int, j: int)
    requires 0 <= j < |row| && row[j] == v
    requires forall k :: 0 <= k < |row| && k != j ==> row[k] != v
    ensures LastMatch(row, v) == j
  {
  }

  /** A value held nowhere gives -1. */
  lemma LastMatchAbsent(row: seq<int>, v: int)
    requires forall k :: 0 <= k < |row| ==> row[k] != v
    ensures LastMatch(row, v) == -1
  {
  }

  /** Row `i` of `times` holds 1 at some nonzero column. */
  predicate HasReciprocal(times: seq<seq<int>>, i: int)
    requires 0 <= i < |times|
  {
    exists j :: 0 < j < |times[i]| && times[i][j] == 1
  }

  /** The negative check of `prepare` never throws: every nonzero element's last zero-sum partner is nonzero. */
  lemma NegativeCheckPasses(p: int, n: nat)
    requires p >= 2 && n >= 1
    ensures FirstFailure(NegScan(Plus(p, n)), 0) == Pow(p, n)
  {
    var neg := NegScan(Plus(p, n));
    forall i | 0 < i < Pow(p, n)
      ensures neg[i] > 0
    {
      var j := NegativeExists(p, n, i);
      LastMatchPositive(Plus(p, n)[i], 0);
    }
  }

  /** The reciprocal check passes exactly when every nonzero element has a reciprocal. */
  lemma ReciprocalCheck(times: seq<seq<int>>)
    ensures FirstFailure(InvScan(times), 0) == |times| <==> forall i :: 0 < i < |times| ==> HasReciprocal(times, i)
  {
    var inv := InvScan(times);
    forall i | 0 < i < |times|
      ensures inv[i] > 0 <==> HasReciprocal(times, i)
    {
      LastMatchPositive(times[i], 1);
    }
  }

  // ---------------------------------------------------------------------
  // The outcome of prepare
  // ---------------------------------------------------------------------

  /** `prepare` returns normally exactly when every nonzero element has a reciprocal. */
  lemma PrepareSucceeds(p: int, n: nat, xton: seq<int>)
    requires p >= 2 && n >= 1 && |xton| >= n
    ensures Prepare(p, n, xton).status.Pass? <==>
      forall i :: 0 < i < Pow(p, n) ==> HasReciprocal(Times(p, n, xton), i)
  {
    NegativeCheckPasses(p, n);
    ReciprocalCheck(Times(p, n, xton));
  }

  /** The element the reciprocal check stops at has no reciprocal, and every nonzero element before it has one. */
  lemma FirstWithoutReciprocal(times: seq<seq<int>>)
    ensures var i := FirstFailure(InvScan(times), 0);
      (i < |times| ==> i > 0 && !HasReciprocal(times, i))
      && forall k :: 0 < k < i ==> HasReciprocal(times, k)
  {
    var inv := InvScan(times);
    var i := FirstFailure(inv, 0);
    if i < |times| {
      LastMatchPositive(times[i], 1);
    }
    forall k | 0 < k < i
      ensures HasReciprocal(times, k)
    {
      LastMatchPositive(times[k], 1);
    }
  }

  /** The field `prepare` leaves behind when it throws. */
  lemma PrepareFailureState(p: int, n: nat, xton: seq<int>)
    requires p >= 2 && n >= 1 && |xton| >= n
    ensures var q, times := Pow(p, n), Times(p, n, xton);
      var i := FirstFailure(InvScan(times), 0);
      Prepare(p, n, xton).status.Fail? ==>
        i < q
        && Prepare(p, n, xton) == Attempt(
             Field(n, p, q, WrittenUpTo(InvScan(times), i), Zeros(q), Zeros(q), Plus(p, n), times, PolyTable(p, n)),
             Fail(NoReciprocal(q, i)))
  {
    NegativeCheckPasses(p, n);
  }

  /** What the failed `prepare` leaves in `inv`, `neg` and `root`. */
  lemma PrepareFailureVectors(p: int, n: nat, xton: seq<int>)
    requires p >= 2 && n >= 1 && |xton| >= n
    ensures var r, i := Prepare(p, n, xton), FirstFailure(InvScan(Times(p, n, xton)), 0);
      r.status.Fail? ==>
        i < r.gf.q && r.gf.times == Times(p, n, xton) && r.status.error == NoReciprocal(r.gf.q, i)
        && (forall k :: 0 <= k <= i ==> r.gf.inv[k] == LastMatch(r.gf.times[k], 1))
        && (forall k :: i < k < r.gf.q ==> r.gf.inv[k] == 0)
        && r.gf.neg == Zeros(r.gf.q) && r.gf.root == Zeros(r.gf.q)
  {
    PrepareFailureState(p, n, xton);
    var r := Prepare(p, n, xton);
    if r.status.Fail? {
      var times := Times(p, n, xton);
      var inv := InvScan(times);
      var i := FirstFailure(inv, 0);
      assert r.gf.inv == WrittenUpTo(inv, i) && r.gf.times == times;
      forall k | 0 <= k <= i
        ensures r.gf.inv[k] == LastMatch(r.gf.times[k], 1)
      {
        assert r.gf.inv[k] == inv[k];
      }
    }
  }

  /**
   * When `prepare` throws, it throws "no reciprocal" for the first nonzero
   * element without one; `inv` holds the scan up to that element and the
   * zeros of `vector<int>(q)` after it, and `neg` and `root` are untouched
   * zero vectors.
   */
  lemma PrepareFailure(p: int, n: nat, xton: seq<int>)
    requires p >= 2 && n >= 1 && |xton| >= n
    ensures var r := Prepare(p, n, xton);
      r.status.Fail? ==>
        r.status.error.NoReciprocal? && r.status.error.q == r.gf.q
        && 0 < r.status.error.i < r.gf.q
        && !HasReciprocal(r.gf.times, r.status.error.i)
        && (forall k :: 0 < k < r.status.error.i ==> HasReciprocal(r.gf.times, k))
        && (forall k :: 0 <= k <= r.status.error.i ==> r.gf.inv[k] == LastMatch(r.gf.times[k], 1))
        && (forall k :: r.status.error.i < k < r.gf.q ==> r.gf.inv[k] == 0)
        && r.gf.neg == Zeros(r.gf.q) && r.gf.root == Zeros(r.gf.q)
  {
    PrepareFailureVectors(p, n, xton);
    FirstWithoutReciprocal(Times(p, n, xton));
  }

  // ---------------------------------------------------------------------
  // A field built successfully
  // ---------------------------------------------------------------------

  /** A square table whose entries are all row indices: a binary operation on `[0, |t|)`. */
  predicate Operation(t: seq<seq<int>>)
  {
    IsTable(t, |t|, |t|) && forall i, j :: 0 <= i < |t| && 0 <= j < |t| ==> 0 <= t[i][j] < |t|
  }

  predicate Commutative(t: seq<seq<int>>)
    requires IsTable(t, |t|, |t|)
  {
    forall i, j :: 0 <= i < |t| && 0 <= j < |t| ==> t[i][j] == t[j][i]
  }

  /** `t(t(a, b), c) == t(a, t(b, c))` for one triple; kept apart so that the law is used only where it is named. */
  predicate AssociativeAt(t: seq<seq<int>>, a: int, b: int, c: int)
    requires Operation(t) && 0 <= a < |t| && 0 <= b < |t| && 0 <= c < |t|
  {
    t[t[a][b]][c] == t[a][t[b][c]]
  }

  predicate Associative(t: seq<seq<int>>)
    requires Operation(t)
  {
    forall a, b, c :: 0 <= a < |t| && 0 <= b < |t| && 0 <= c < |t| ==> AssociativeAt(t, a, b, c)
  }

  /** Column `e` is the identity: `t(e, i) == i`. */
  predicate RightIdentity(t: seq<seq<int>>, e: int)
    requires IsTable(t, |t|, |t|) && 0 <= e < |t|
  {
    forall i :: 0 <= i < |t| ==> t[i][e] == i
  }

  /** `plus` is commutative and associative with identity 0, `neg[0] == 0`, and every `neg[i]` is a negative of `i`. */
  predicate AdditiveGroup(gf: Field)
    requires Shaped(gf) && gf.q >= 1
  {
    Operation(gf.plus) && Commutative(gf.plus) && Associative(gf.plus) && RightIdentity(gf.plus, 0)
    && gf.neg[0] == 0 && Negatives(gf)
  }

  /**
   * What the code guarantees of `times`: it is a commutative operation,
   * row 0 is zero, row 1 is the identity, `inv[0] == -1`, and every nonzero
   * element has its recorded reciprocal.
   */
  predicate MultiplicationTable(gf: Field)
    requires Shaped(gf) && gf.q >= 2
  {
    Operation(gf.times) && Commutative(gf.times)
    && (forall j :: 0 <= j < gf.q ==> gf.times[0][j] == 0 && gf.times[1][j] == j)
    && gf.inv[0] == -1 && Reciprocals(gf)
  }

  /** A field as a successful `getField` leaves it. */
  ghost predicate Valid(gf: Field)
  {
    Shaped(gf) && gf.n >= 1 && Prime(gf.p) && gf.q == Pow(gf.p, gf.n) && gf.q >= 2
    && (forall i :: 0 <= i < gf.q ==> gf.poly[i] == ToDigits(i, gf.p, gf.n))
    && AdditiveGroup(gf) && MultiplicationTable(gf) && SquareRoots(gf)
  }

  /** `plus` is an operation on the elements. */
  lemma PlusOperation(p: int, n: nat)
    requires p >= 2 && n >= 1
    ensures Operation(Plus(p, n))
  {
    forall i, j | 0 <= i < Pow(p, n) && 0 <= j < Pow(p, n)
      ensures 0 <= Plus(p, n)[i][j] < Pow(p, n)
    {
      PlusEntry(p, n, i, j);
    }
  }

  /** With a non-negative catalog vector `times` is an operation on the elements. */
  lemma TimesOperation(p: int, n: nat, xton: seq<int>)
    requires p >= 2 && n >= 1 && |xton| >= n && NonNegative(xton)
    ensures Operation(Times(p, n, xton))
  {
    forall i, j | 0 <= i < Pow(p, n) && 0 <= j < Pow(p, n)
      ensures 0 <= Times(p, n, xton)[i][j] < Pow(p, n)
    {
      TimesEntry(p, n, xton, i, j);
    }
  }

  /** The laws of `plus`, for all elements at once. */
  lemma PlusLaws(p: int, n: nat)
    requires p >= 2 && n >= 1
    ensures Operation(Plus(p, n)) && Commutative(Plus(p, n)) && Associative(Plus(p, n))
    ensures Pow(p, n) >= 1 && RightIdentity(Plus(p, n), 0)
  {
    var t := Plus(p, n);
    PowPositive(p, n);
    PlusOperation(p, n);
    forall i, j | 0 <= i < |t| && 0 <= j < |t|
      ensures t[i][j] == t[j][i]
    {
      PlusSymmetric(p, n, i, j);
    }
    forall i | 0 <= i < |t|
      ensures t[i][0] == i
    {
      PlusZero(p, n, i);
    }
    forall a, b, c | 0 <= a < |t| && 0 <= b < |t| && 0 <= c < |t|
      ensures AssociativeAt(t, a, b, c)
    {
      PlusAssociative(p, n, a, b, c);
    }
  }

  /** `neg[0] == 0`: the only partner of 0 with sum 0 is 0 itself. */
  lemma NegOfZero(p: int, n: nat)
    requires p >= 2 && n >= 1
    ensures Pow(p, n) >= 2 && NegScan(Plus(p, n))[0] == 0
  {
    PowAtLeastBase(p, n);
    var row := Plus(p, n)[0];
    forall k | 0 <= k < |row|
      ensures row[k] == k
    {
      PlusZero(p, n, k);
      PlusSymmetric(p, n, 0, k);
    }
    LastMatchOnly(row, 0, 0);
  }

  /** `times` is commutative. */
  lemma TimesCommutative(p: int, n: nat, xton: seq<int>)
    requires p >= 2 && n >= 1 && |xton| >= n
    ensures Commutative(Times(p, n, xton))
  {
    var t := Times(p, n, xton);
    forall i, j | 0 <= i < |t| && 0 <= j < |t|
      ensures t[i][j] == t[j][i]
    {
      TimesSymmetric(p, n, xton, i, j);
    }
    assert Commutative(t);
  }

  /** Row 0 of `times` is all zeros and row 1 is the identity. */
  lemma TimesUnitRows(p: int, n: nat, xton: seq<int>)
    requires p >= 2 && n >= 1 && |xton| >= n
    ensures Pow(p, n) >= 2
    ensures forall j :: 0 <= j < Pow(p, n) ==> Times(p, n, xton)[0][j] == 0 && Times(p, n, xton)[1][j] == j
  {
    PowAtLeastBase(p, n);
    forall j | 0 <= j < Pow(p, n)
      ensures Times(p, n, xton)[0][j] == 0 && Times(p, n, xton)[1][j] == j
    {
      TimesZero(p, n, xton, j);
      TimesOne(p, n, xton, j);
    }
  }

  /** The field a successful `prepare` returns, spelled out. */
  lemma PrepareSuccessState(p: int, n: nat, xton: seq<int>)
    requires p >= 2 && n >= 1 && |xton| >= n
    ensures var times := Times(p, n, xton);
      Prepare(p, n, xton).status.Pass? ==>
        Prepare(p, n, xton).gf == Field(n, p, Pow(p, n), InvScan(times), NegScan(Plus(p, n)), RootScan(times),
          Plus(p, n), times, PolyTable(p, n))
        && FirstFailure(InvScan(times), 0) == Pow(p, n)
  {
    NegativeCheckPasses(p, n);
  }

  /** The additive half of a successful build. */
  lemma BuiltAdditiveGroup(p: int, n: nat, inv: seq<int>, root: seq<int>, times: seq<seq<int>>)
    requires p >= 2 && n >= 1 && |inv| == Pow(p, n) && |root| == Pow(p, n) && IsTable(times, Pow(p, n), Pow(p, n))
    ensures var gf := Field(n, p, Pow(p, n), inv, NegScan(Plus(p, n)), root, Plus(p, n), times, PolyTable(p, n));
      Shaped(gf) && gf.q >= 1 && AdditiveGroup(gf)
  {
    var gf := Field(n, p, Pow(p, n), inv, NegScan(Plus(p, n)), root, Plus(p, n), times, PolyTable(p, n));
    PlusLaws(p, n);
    NegOfZero(p, n);
    NegScanFindsNegatives(p, n);
  }

  /** Each `neg[i]` of a nonzero `i` is a nonzero element whose sum with `i` is 0. */
  lemma NegScanFindsNegatives(p: int, n: nat)
    requires p >= 2 && n >= 1
    ensures forall i :: 0 < i < Pow(p, n) ==>
      0 < NegScan(Plus(p, n))[i] < Pow(p, n) && Plus(p, n)[i][NegScan(Plus(p, n))[i]] == 0
  {
    NegativeCheckPasses(p, n);
  }

  /** The multiplicative half of a successful build. */
  lemma BuiltMultiplicationTable(p: int, n: nat, xton: seq<int>, neg: seq<int>)
    requires p >= 2 && n >= 1 && |xton| >= n && NonNegative(xton) && |neg| == Pow(p, n)
    requires FirstFailure(InvScan(Times(p, n, xton)), 0) == Pow(p, n)
    ensures var times := Times(p, n, xton);
      var gf := Field(n, p, Pow(p, n), InvScan(times), neg, RootScan(times), Plus(p, n), times, PolyTable(p, n));
      Shaped(gf) && gf.q >= 2 && MultiplicationTable(gf) && SquareRoots(gf)
  {
    var times := Times(p, n, xton);
    var gf := Field(n, p, Pow(p, n), InvScan(times), neg, RootScan(times), Plus(p, n), times, PolyTable(p, n));
    TimesOperation(p, n, xton);
    TimesCommutative(p, n, xton);
    TimesUnitRows(p, n, xton);
    ScannedMultiplication(gf);
  }

  /** Scanning a commutative operation with identity 1 and absorbing 0, whose reciprocal check passes, gives a multiplication table. */
  lemma ScannedMultiplication(gf: Field)
    requires Shaped(gf) && gf.q >= 2 && Operation(gf.times) && Commutative(gf.times)
    requires forall j :: 0 <= j < gf.q ==> gf.times[0][j] == 0 && gf.times[1][j] == j
    requires gf.inv == InvScan(gf.times) && gf.root == RootScan(gf.times)
    requires FirstFailure(gf.inv, 0) == gf.q
    ensures MultiplicationTable(gf) && SquareRoots(gf)
  {
    BuiltReciprocals(gf.times, gf.q);
    BuiltSquareRoots(gf.times);
    assert gf.times[0][1] == 0;
  }

  /** When the reciprocal check passes, every nonzero `inv[i]` is a nonzero `j` with `times(j, i) == 1`. */
  lemma BuiltReciprocals(times: seq<seq<int>>, q: int)
    requires IsTable(times, q, q) && FirstFailure(InvScan(times), 0) == q
    ensures forall i :: 0 < i < q ==> 0 < InvScan(times)[i] < q && times[i][InvScan(times)[i]] == 1
  {
    var inv := InvScan(times);
    forall i | 0 < i < q
      ensures 0 < inv[i] < q && times[i][inv[i]] == 1
    {
      assert inv[i] > 0;
      assert inv[i] == LastMatch(times[i], 1);
    }
  }

  /** Each `root[i]` is `-1` or the last `j` with `times(j, j) == i`. */
  lemma BuiltSquareRoots(times: seq<seq<int>>)
    requires IsTable(times, |times|, |times|)
    ensures forall i :: 0 <= i < |times| ==>
      && -1 <= RootScan(times)[i] < |times|
      && (RootScan(times)[i] >= 0 ==> times[RootScan(times)[i]][RootScan(times)[i]] == i)
      && (forall j :: RootScan(times)[i] < j < |times| ==> times[j][j] != i)
  {
    var root, d := RootScan(times), Diagonal(times);
    forall i | 0 <= i < |times|
      ensures -1 <= root[i] < |times|
      ensures root[i] >= 0 ==> times[root[i]][root[i]] == i
      ensures forall j :: root[i] < j < |times| ==> times[j][j] != i
    {
      assert root[i] == LastMatch(d, i);
      forall j | root[i] < j < |times|
        ensures times[j][j] != i
      {
        assert d[j] == times[j][j];
      }
    }
  }

  /** A successful `prepare` for a prime `p` builds a valid field. */
  lemma PrepareValid(p: int, n: nat, xton: seq<int>)
    requires Prime(p) && n >= 1 && |xton| >= n && NonNegative(xton)
    ensures Prepare(p, n, xton).status.Pass? ==> Valid(Prepare(p, n, xton).gf)
  {
    var r := Prepare(p, n, xton);
    if r.status.Pass? {
      var times := Times(p, n, xton);
      PrepareSuccessState(p, n, xton);
      BuiltAdditiveGroup(p, n, InvScan(times), RootScan(times), times);
      BuiltMultiplicationTable(p, n, xton, NegScan(Plus(p, n)));
    }
  }

  // ---------------------------------------------------------------------
  // getField, Field(q), resize
  // ---------------------------------------------------------------------

  /** Every catalog vector has non-negative coefficients. */
  predicate CatalogNonNegative(catalog: Catalog)
  {
    forall q :: q in catalog ==> NonNegative(catalog[q])
  }

  /** The catalog vector for `q` makes every nonzero element of `GF(q)` invertible. */
  ghost predicate Invertible(catalog: Catalog, q: int)
    requires CatalogFits(catalog)
  {
    q > 1 && InCatalog(catalog, q) && FindPrimePower(q).Some?
    && var (p, n) := FindPrimePower(q).value;
       forall i :: 0 < i < q ==> HasReciprocal(Times(p, n, catalog[q]), i)
  }

  /**
   * `getField` succeeds exactly for a prime power whose catalog vector makes
   * every nonzero element invertible, and then leaves a valid field of that
   * size.
   */
  lemma GetFieldValid(gf: Field, q: int, catalog: Catalog)
    requires CatalogFits(catalog) && CatalogNonNegative(catalog)
    ensures GetField(gf, q, catalog).status.Pass? <==> IsPrimePower(q) && Invertible(catalog, q)
    ensures GetField(gf, q, catalog).status.Pass? ==> Valid(GetField(gf, q, catalog).gf) && GetField(gf, q, catalog).gf.q == q
  {
    if q > 1 && InCatalog(catalog, q) && FindPrimePower(q).Some? {
      var (p, n) := FindPrimePower(q).value;
      PrepareSucceeds(p, n, catalog[q]);
      PrepareValid(p, n, catalog[q]);
    }
  }

  /** `Field(q)` yields a valid field of `q` elements, or throws. */
  lemma NewFieldValid(q: int, catalog: Catalog)
    requires CatalogFits(catalog) && CatalogNonNegative(catalog)
    ensures NewField(q, catalog).Success? <==> IsPrimePower(q) && Invertible(catalog, q)
    ensures NewField(q, catalog).Success? ==> Valid(NewField(q, catalog).value) && NewField(q, catalog).value.q == q
  {
    GetFieldValid(Empty, q, catalog);
  }

  /** A successful `resize` to a new size leaves a valid field of that size; resizing a valid field to its own size keeps it valid. */
  lemma ResizeValid(gf: Field, newQ: int, catalog: Catalog)
    requires CatalogFits(catalog) && CatalogNonNegative(catalog)
    ensures Resize(gf, newQ, catalog).status.Pass? && gf.q != newQ ==> Valid(Resize(gf, newQ, catalog).gf)
    ensures Valid(gf) ==> Resize(gf, newQ, catalog).status.Pass? ==> Valid(Resize(gf, newQ, catalog).gf)
    ensures Resize(gf, newQ, catalog).status.Pass? ==> Resize(gf, newQ, catalog).gf.q == newQ
  {
    GetFieldValid(gf, newQ, catalog);
  }
}

=== FILE: fields.dfy ===
/**
 * The `Field` record of include/galois++/field.h and the builder of
 * src/field.cpp that fills it: `prepare`, `getField`, `Field(q)` and
 * `resize`. A thrown `runtime_error` becomes a `Fail` status; because
 * `resize` works on an existing object, the builder reports the field as
 * it stands when the error leaves `prepare` or `getField`.
 */
module Fields {
  import opened Wrappers
  import opened Errors
  import opened Arithmetic
  import opened PrimePowers
  import opened Polynomials
  import opened PolyProduct

  /**
   * `GF(p^n)` with `q = p^n` elements and its lookup tables. A table keeps
   * the row-major layout of `Array2d`: the entry `t(x, y)` is `t[y][x]`.
   */
  datatype Field = Field(
    n: int,
    p: int,
    q: int,
    inv: seq<int>,
    neg: seq<int>,
    root: seq<int>,
    plus: seq<seq<int>>,
    times: seq<seq<int>>,
    poly: seq<seq<int>>)

  /** The default-constructed `Field()`: no elements and empty tables. */
  const Empty := Field(0, 0, 0, [], [], [], [], [], [])

  /** A builder step: the field as it stands afterwards and whether the step threw. */
  datatype Attempt = Attempt(gf: Field, status: Outcome<Error>)

  /** `rows` rows of `cols` entries. */
  predicate IsTable(t: seq<seq<int>>, rows: int, cols: int)
  {
    |t| == rows && forall y :: 0 <= y < |t| ==> |t[y]| == cols
  }

  /** `Array2d` access `t(x, y)`. */
  function At(t: seq<seq<int>>, x: int, y: int): int
    requires 0 <= y < |t| && 0 <= x < |t[y]|
  {
    t[y][x]
  }

  /** The shape `prepare` gives a field: vectors of length `q`, `q×q` tables, `q` rows of `n` digits. */
  predicate Shaped(gf: Field)
  {
    gf.q >= 0 && gf.n >= 0
    && |gf.inv| == gf.q && |gf.neg| == gf.q && |gf.root| == gf.q
    && IsTable(gf.plus, gf.q, gf.q) && IsTable(gf.times, gf.q, gf.q)
    && IsTable(gf.poly, gf.q, gf.n)
  }

  /** Every nonzero element `i` has its recorded reciprocal: `0 < inv[i] < q` and `times(inv[i], i) == 1`. */
  predicate Reciprocals(gf: Field)
    requires Shaped(gf)
  {
    forall i :: 0 < i < gf.q ==> 0 < gf.inv[i] < gf.q && At(gf.times, gf.inv[i], i) == 1
  }

  /** Every nonzero element `i` has its recorded negative: `0 < neg[i] < q` and `plus(neg[i], i) == 0`. */
  predicate Negatives(gf: Field)
    requires Shaped(gf)
  {
    forall i :: 0 < i < gf.q ==> 0 < gf.neg[i] < gf.q && At(gf.plus, gf.neg[i], i) == 0
  }

  /** `root[i]` is -1 when no `j` has `times(j, j) == i`, and otherwise the largest such `j`. */
  predicate SquareRoots(gf: Field)
    requires Shaped(gf)
  {
    forall i :: 0 <= i < gf.q ==>
      -1 <= gf.root[i] < gf.q
      && (gf.root[i] >= 0 ==> At(gf.times, gf.root[i], gf.root[i]) == i)
      && (forall j :: gf.root[i] < j < gf.q ==> At(gf.times, j, j) != i)
  }

  // ---------------------------------------------------------------------
  // The tables of prepare
  // ---------------------------------------------------------------------

  /** `poly` as the ripple-carry loop fills it: row `i` is element `i`'s `n` digits. */
  function PolyTable(p: int, n: nat): (t: seq<seq<int>>)
    requires p >= 2
    ensures IsTable(t, Pow(p, n), n)
    ensures forall i :: 0 <= i < |t| ==> t[i] == ToDigits(i, p, n)
  {
    PowPositive(p, n);
    Enumerate(p, n, Pow(p, n))
  }

  /** `plus(j, i) = poly2int(polySum(poly.row(i), poly.row(j)))`. */
  function PlusTable(p: int, n: nat, poly: seq<seq<int>>): (t: seq<seq<int>>)
    requires p >= 2 && n >= 1 && IsTable(poly, |poly|, n)
    ensures IsTable(t, |poly|, |poly|)
  {
    seq(|poly|, i requires 0 <= i < |poly| =>
      seq(|poly|, j requires 0 <= j < |poly| => Poly2Int(p, n, PolySum(p, n, poly[i], poly[j]))))
  }

  /** `times(j, i) = poly2int(polyProd(poly.row(i), poly.row(j)))`. */
  function TimesTable(p: int, n: nat, xton: seq<int>, poly: seq<seq<int>>): (t: seq<seq<int>>)
    requires p >= 2 && n >= 1 && |xton| >= n && IsTable(poly, |poly|, n)
    ensures IsTable(t, |poly|, |poly|)
  {
    seq(|poly|, i requires 0 <= i < |poly| =>
      seq(|poly|, j requires 0 <= j < |poly| => Poly2Int(p, n, PolyProd(p, n, xton, poly[i], poly[j]))))
  }

  /**
   * The scanning loop `ans := -1; for j: if row[j] == v then ans := j`,
   * from position `j` on, where `ans` is the last match before `j`.
   */
  function ScanFrom(row: seq<int>, v: int, j: int, ans: int): (r: int)
    requires 0 <= j <= |row| && -1 <= ans < j
    requires ans >= 0 ==> row[ans] == v
    requires forall k :: ans < k < j ==> row[k] != v
    ensures -1 <= r < |row|
    ensures r >= 0 ==> row[r] == v
    ensures forall k :: r < k < |row| ==> row[k] != v
    decreases |row| - j
  {
    if j == |row| then ans else ScanFrom(row, v, j + 1, if row[j] == v then j else ans)
  }

  /** The largest index holding `v`, or -1 when none does: the last match of a forward scan wins. */
  function LastMatch(row: seq<int>, v: int): (r: int)
    ensures -1 <= r < |row|
    ensures r >= 0 ==> row[r] == v
    ensures forall k :: r < k < |row| ==> row[k] != v
  {
    ScanFrom(row, v, 0, -1)
  }

  /** The entries `t(j, j)`. */
  function Diagonal(t: seq<seq<int>>): (d: seq<int>)
    requires IsTable(t, |t|, |t|)
    ensures |d| == |t| && forall j :: 0 <= j < |t| ==> d[j] == t[j][j]
  {
    seq(|t|, j requires 0 <= j < |t| => t[j][j])
  }

  /** The reciprocal loop: `inv[i]` is the last `j` with `times(j, i) == 1`. */
  function InvScan(times: seq<seq<int>>): (s: seq<int>)
    ensures |s| == |times| && forall i :: 0 <= i < |s| ==> s[i] == LastMatch(times[i], 1)
  {
    seq(|times|, i requires 0 <= i < |times| => LastMatch(times[i], 1))
  }

  /** The negative loop: `neg[i]` is the last `j` with `plus(j, i) == 0`. */
  function NegScan(plus: seq<seq<int>>): (s: seq<int>)
    ensures |s| == |plus| && forall i :: 0 <= i < |s| ==> s[i] == LastMatch(plus[i], 0)
  {
    seq(|plus|, i requires 0 <= i < |plus| => LastMatch(plus[i], 0))
  }

  /** The square-root loop: `root[i]` is the last `j` with `times(j, j) == i`. */
  function RootScan(times: seq<seq<int>>): (s: seq<int>)
    requires IsTable(times, |times|, |times|)
    ensures |s| == |times| && forall i :: 0 <= i < |s| ==> s[i] == LastMatch(Diagonal(times), i)
  {
    seq(|times|, i requires 0 <= i < |times| => LastMatch(Diagonal(times), i))
  }

  /**
   * The element the checking loop throws for: the first `k >= from` with
   * `k > 0` and `s[k] <= 0`, or `|s|` when the check passes throughout.
   */
  function FirstFailure(s: seq<int>, from: nat): (k: nat)
    requires from <= |s|
    ensures from <= k <= |s|
    ensures forall m :: from <= m < k ==> m == 0 || s[m] > 0
    ensures k < |s| ==> k > 0 && s[k] <= 0
    decreases |s| - from
  {
    if from == |s| then from
    else if from > 0 && s[from] <= 0 then from
    else FirstFailure(s, from + 1)
  }

  /**
   * `vector<int>(q)` written up to and including index `k` by a loop that
   * threw there: the scanned prefix, then the zeros it was created with.
   */
  function WrittenUpTo(s: seq<int>, k: nat): (w: seq<int>)
    requires k < |s|
    ensures |w| == |s|
    ensures forall m :: 0 <= m <= k ==> w[m] == s[m]
    ensures forall m :: k < m < |s| ==> w[m] == 0
  {
    s[..k + 1] + Zeros(|s| - k - 1)
  }

  /**
   * `prepare(gf, p, n, xton)`. The reciprocal check runs over the whole
   * `inv` vector before the negative check begins, and `root` is filled
   * only when both pass; a throw leaves the vectors not yet reached as the
   * zero vectors `vector<int>(q)` made at the start.
   */
  function Prepare(p: int, n: nat, xton: seq<int>): (r: Attempt)
    requires p >= 2 && n >= 1 && |xton| >= n
    ensures Shaped(r.gf) && r.gf.p == p && r.gf.n == n && r.gf.q == Pow(p, n)
    ensures forall i :: 0 <= i < r.gf.q ==> r.gf.poly[i] == ToDigits(i, p, n)
    ensures r.status.Pass? || r.status.error.NoReciprocal? || r.status.error.NoNegative?
  {
    var q := Pow(p, n);
    var poly := PolyTable(p, n);
    var plus := PlusTable(p, n, poly);
    var times := TimesTable(p, n, xton, poly);
    var inv := InvScan(times);
    var neg := NegScan(plus);
    var noInv := FirstFailure(inv, 0);
    var noNeg := FirstFailure(neg, 0);
    if noInv < q then
      Attempt(Field(n, p, q, WrittenUpTo(inv, noInv), Zeros(q), Zeros(q), plus, times, poly),
              Fail(NoReciprocal(q, noInv)))
    else if noNeg < q then
      Attempt(Field(n, p, q, inv, WrittenUpTo(neg, noNeg), Zeros(q), plus, times, poly),
              Fail(NoNegative(q, noNeg)))
    else
      Attempt(Field(n, p, q, inv, neg, RootScan(times), plus, times, poly), Pass)
  }

  // ---------------------------------------------------------------------
  // getField, Field(q), resize
  // ---------------------------------------------------------------------

  /**
   * The catalog of `x^n` vectors that `xton(q)` looks up: `q` maps to the
   * coefficients of `x^n` in `GF(q)`; a missing key is a null pointer.
   */
  type Catalog = map<int, seq<int>>

  /** Each non-empty vector of the catalog has the `n` coefficients `polyProd` reads for its `q = p^n`. */
  predicate CatalogFits(catalog: Catalog)
  {
    forall q :: q in catalog && |catalog[q]| > 0 && FindPrimePower(q).Some? ==>
      |catalog[q]| >= FindPrimePower(q).value.1
  }

  /** The catalog has a usable vector for `q`. */
  predicate InCatalog(catalog: Catalog, q: int)
  {
    q in catalog && |catalog[q]| > 0
  }

  /**
   * `getField(q, gf)`: the argument checks throw before anything is
   * written, so on those errors the field is returned as it was.
   */
  function GetField(gf: Field, q: int, catalog: Catalog): (r: Attempt)
    requires CatalogFits(catalog)
    ensures q < 1 <==> r.status == Fail(NonPositiveSize(q))
    ensures q == 1 <==> r.status == Fail(TrivialSize)
    ensures r.status.Fail? && r.status.error.NotPrimePower? <==> q > 1 && !IsPrimePower(q)
    ensures r.status.Fail? && r.status.error.NotInCatalog? <==> q > 1 && IsPrimePower(q) && !InCatalog(catalog, q)
    ensures q <= 1 || !IsPrimePower(q) || !InCatalog(catalog, q) ==> r.gf == gf
    ensures r.status.Pass? ==> Shaped(r.gf) && r.gf.q == q && Prime(r.gf.p) && r.gf.n >= 1
  {
    if q < 1 then Attempt(gf, Fail(NonPositiveSize(q)))
    else if q == 1 then Attempt(gf, Fail(TrivialSize))
    else match FindPrimePower(q)
      case None => Attempt(gf, Fail(NotPrimePower(q)))
      case Some((p, n)) =>
        if InCatalog(catalog, q) then Prepare(p, n, catalog[q])
        else Attempt(gf, Fail(NotInCatalog(q, p, n)))
  }

  /** The constructor `Field(q)`: a default-constructed field handed to `getField`; a throw yields no object. */
  function NewField(q: int, catalog: Catalog): (r: Result<Field, Error>)
    requires CatalogFits(catalog)
    ensures r.Success? ==> Shaped(r.value) && r.value.q == q && Prime(r.value.p) && r.value.n >= 1
    ensures r.Failure? ==> GetField(Empty, q, catalog).status == Fail(r.error)
    ensures q <= 1 || !IsPrimePower(q) || !InCatalog(catalog, q) ==> r.Failure?
  {
    var a := GetField(Empty, q, catalog);
    if a.status.Pass? then Success(a.gf) else Failure(a.status.error)
  }

  /**
   * `resize(newQ)`: nothing happens when the size is already `newQ`;
   * otherwise `getField` rebuilds the field in place. It never reports
   * failure by a return value: it returns true or throws.
   */
  function Resize(gf: Field, newQ: int, catalog: Catalog): (r: Attempt)
    requires CatalogFits(catalog)
    ensures gf.q == newQ ==> r == Attempt(gf, Pass)
    ensures r.status.Pass? ==> r.gf.q == newQ
    ensures r.status.Fail? ==> gf.q != newQ
    ensures newQ <= 1 || !IsPrimePower(newQ) || !InCatalog(catalog, newQ) ==> r.gf == gf
  {
    if gf.q == newQ then Attempt(gf, Pass) else GetField(gf, newQ, catalog)
  }
}

=== FILE: poly_product.dfy ===
/**
 * `polyProd` of src/field.cpp: the product of two length-`n` coefficient
 * vectors, computed as the full convolution, folded back to degree `< n`
 * with the catalog vector `xton` (the coefficients of `x^n` in the field's
 * representation), and finally taken through the C++ remainder by `p`.
 */
module PolyProduct {
  import opened Arithmetic
  import opened Polynomials

  /** The term `p1[i]·p2[j]` of the coefficient of `x^k`; zero unless `i + j == k`. */
  function ConvTerm(p1: seq<int>, p2: seq<int>, k: int): (int, int) -> int
  {
    (i: int, j: int) => if 0 <= i < |p1| && 0 <= j < |p2| && i + j == k then p1[i] * p2[j] else 0
  }

  /**
   * `longprod` after the first double loop: entry `k` accumulates
   * `p1[i]·p2[j]` over the `n×n` grid, row by row, for every `i + j == k`.
   */
  function LongProd(n: nat, p1: seq<int>, p2: seq<int>): (lp: seq<int>)
    requires n >= 1 && |p1| == n && |p2| == n
    ensures |lp| == 2 * n - 1
  {
    seq(2 * n - 1, k => GridSum(ConvTerm(p1, p2, k), n, n))
  }

  /**
   * The inner loop of the fold for degree `d`, from `j` on: position
   * `d - n + j` receives `xton[j]·lp[d]`. Every write lands below `d`, so
   * `lp[d]` is read unchanged by each step.
   */
  function FoldFrom(lp: seq<int>, xton: seq<int>, n: nat, d: int, j: nat): (r: seq<int>)
    requires n <= d < |lp| && |xton| >= n && j <= n
    ensures |r| == |lp|
    ensures forall k :: 0 <= k < |r| ==>
      r[k] == if d - n + j <= k < d then lp[k] + xton[k - (d - n)] * lp[d] else lp[k]
    decreases n - j
  {
    if j == n then lp
    else
      var i := d - n + j;
      FoldFrom(lp[i := lp[i] + xton[j] * lp[d]], xton, n, d, j + 1)
  }

  /** The second loop of `polyProd`: fold degrees `d, d-1, ..., n` in that order. */
  function Reduce(lp: seq<int>, xton: seq<int>, n: nat, d: int): (r: seq<int>)
    requires n >= 1 && |xton| >= n && d < |lp|
    ensures |r| == |lp|
    ensures NonNegative(lp) && NonNegative(xton) ==> NonNegative(r)
    decreases d
  {
    if d < n then lp
    else
      var folded := FoldFrom(lp, xton, n, d, 0);
      assert NonNegative(lp) && NonNegative(xton) ==> NonNegative(folded) by {
        if NonNegative(lp) && NonNegative(xton) {
          forall k | 0 <= k < |folded|
            ensures folded[k] >= 0
          {
            if d - n <= k < d {
              assert xton[k - (d - n)] * lp[d] >= 0;
            }
          }
        }
      }
      Reduce(folded, xton, n, d - 1)
  }

  /**
   * `polyProd`: the length-`n` product. With non-negative operands and a
   * non-negative `xton` every coefficient is a base-`p` digit.
   */
  function PolyProd(p: int, n: nat, xton: seq<int>, p1: seq<int>, p2: seq<int>): (prod: seq<int>)
    requires p >= 1 && n >= 1 && |xton| >= n && |p1| == n && |p2| == n
    ensures |prod| == n
    ensures NonNegative(p1) && NonNegative(p2) && NonNegative(xton) ==> IsDigits(prod, p)
  {
    LongProdNonNegative(n, p1, p2);
    var lp := Reduce(LongProd(n, p1, p2), xton, n, 2 * n - 2);
    seq(n, k requires 0 <= k < n => CRem(lp[k], p))
  }

  // ---------------------------------------------------------------------
  // Properties of the convolution
  // ---------------------------------------------------------------------

  lemma LongProdNonNegative(n: nat, p1: seq<int>, p2: seq<int>)
    requires n >= 1 && |p1| == n && |p2| == n
    ensures NonNegative(p1) && NonNegative(p2) ==> NonNegative(LongProd(n, p1, p2))
  {
    if NonNegative(p1) && NonNegative(p2) {
      LongProdNonNegativeOf(n, p1, p2);
    }
  }

  lemma LongProdNonNegativeOf(n: nat, p1: seq<int>, p2: seq<int>)
    requires n >= 1 && |p1| == n && |p2| == n && NonNegative(p1) && NonNegative(p2)
    ensures NonNegative(LongProd(n, p1, p2))
  {
    forall k | 0 <= k < 2 * n - 1
      ensures LongProd(n, p1, p2)[k] >= 0
    {
      var F := ConvTerm(p1, p2, k);
      forall x, y
        ensures F(x, y) >= 0
      {
        if 0 <= x < n && 0 <= y < n && x + y == k {
          assert p1[x] * p2[y] >= 0;
        }
      }
      GridSumNonNegative(F, n, n);
    }
  }

  /** The convolution is symmetric in its operands (the double sum read in transposed order). */
  lemma LongProdSymmetric(n: nat, p1: seq<int>, p2: seq<int>)
    requires n >= 1 && |p1| == n && |p2| == n
    ensures LongProd(n, p1, p2) == LongProd(n, p2, p1)
  {
    forall k | 0 <= k < 2 * n - 1
      ensures LongProd(n, p1, p2)[k] == LongProd(n, p2, p1)[k]
    {
      var F, G := ConvTerm(p1, p2, k), ConvTerm(p2, p1, k);
      forall x, y
        ensures G(x, y) == F(y, x)
      {
      }
      GridSumTranspose(F, G, n, n);
    }
  }

  /** `polyProd` is commutative: the table `times` comes out symmetric. */
  lemma PolyProdSymmetric(p: int, n: nat, xton: seq<int>, p1: seq<int>, p2: seq<int>)
    requires p >= 1 && n >= 1 && |xton| >= n && |p1| == n && |p2| == n
    ensures PolyProd(p, n, xton, p1, p2) == PolyProd(p, n, xton, p2, p1)
  {
    LongProdSymmetric(n, p1, p2);
  }

  /** Folding a vector that is zero at every degree from `n` to `d` changes nothing. */
  lemma {:induction false} ReduceOfLow(lp: seq<int>, xton: seq<int>, n: nat, d: int)
    requires n >= 1 && |xton| >= n && d < |lp|
    requires forall k :: n <= k <= d ==> lp[k] == 0
    ensures Reduce(lp, xton, n, d) == lp
    decreases d
  {
    if d >= n {
      var folded := FoldFrom(lp, xton, n, d, 0);
      assert folded == lp;
      ReduceOfLow(lp, xton, n, d - 1);
    }
  }

  /** The zero polynomial annihilates: row 0 of `times` is all zero. */
  lemma PolyProdZero(p: int, n: nat, xton: seq<int>, p2: seq<int>)
    requires p >= 1 && n >= 1 && |xton| >= n && |p2| == n
    ensures PolyProd(p, n, xton, Zeros(n), p2) == Zeros(n)
  {
    var lp := LongProd(n, Zeros(n), p2);
    forall k | 0 <= k < 2 * n - 1
      ensures lp[k] == 0
    {
      GridSumOnly(ConvTerm(Zeros(n), p2, k), n, n, -1, -1);
    }
    ReduceOfLow(lp, xton, n, 2 * n - 2);
  }

  /** The coefficient vector of the constant polynomial 1. */
  function One(n: nat): (e: seq<int>)
    requires n >= 1
    ensures |e| == n && e[0] == 1 && forall k :: 1 <= k < n ==> e[k] == 0
  {
    [1] + Zeros(n - 1)
  }

  /** The convolution with the polynomial 1 is the other operand, padded with zeros. */
  lemma LongProdOne(n: nat, p2: seq<int>, k: int)
    requires n >= 1 && |p2| == n && 0 <= k < 2 * n - 1
    ensures LongProd(n, One(n), p2)[k] == if k < n then p2[k] else 0
  {
    var F := ConvTerm(One(n), p2, k);
    forall x, y | x != 0 || y != k
      ensures F(x, y) == 0
    {
      if 0 <= x < n && 0 <= y < n && x + y == k {
        assert x != 0;
        assert One(n)[x] == 0;
      }
    }
    GridSumOnly(F, n, n, 0, k);
  }

  /** The convolution with the polynomial 1 is the other operand followed by zeros. */
  lemma LongProdOneIs(n: nat, p2: seq<int>)
    requires n >= 1 && |p2| == n
    ensures LongProd(n, One(n), p2) == p2 + Zeros(n - 1)
  {
    forall k | 0 <= k < 2 * n - 1
      ensures LongProd(n, One(n), p2)[k] == (p2 + Zeros(n - 1))[k]
    {
      LongProdOne(n, p2, k);
    }
  }

  /** The coefficients of `polyProd` are the C++ remainders of the folded convolution. */
  lemma PolyProdCoefficients(p: int, n: nat, xton: seq<int>, p1: seq<int>, p2: seq<int>, lp: seq<int>)
    requires p >= 1 && n >= 1 && |xton| >= n && |p1| == n && |p2| == n
    requires lp == Reduce(LongProd(n, p1, p2), xton, n, 2 * n - 2)
    ensures forall k :: 0 <= k < n ==> PolyProd(p, n, xton, p1, p2)[k] == CRem(lp[k], p)
  {
  }

  /** A long product with no coefficient above degree `n - 1` needs no reduction. */
  lemma PolyProdOfLow(p: int, n: nat, xton: seq<int>, p1: seq<int>, p2: seq<int>)
    requires p >= 1 && n >= 1 && |xton| >= n && |p1| == n && |p2| == n
    requires forall k :: n <= k <= 2 * n - 2 ==> LongProd(n, p1, p2)[k] == 0
    ensures forall k :: 0 <= k < n ==> PolyProd(p, n, xton, p1, p2)[k] == CRem(LongProd(n, p1, p2)[k], p)
  {
    var long := LongProd(n, p1, p2);
    ReduceOfLow(long, xton, n, 2 * n - 2);
    PolyProdCoefficients(p, n, xton, p1, p2, Reduce(long, xton, n, 2 * n - 2));
  }

  /** The polynomial 1 is neutral: row 1 of `times` is the identity. */
  lemma PolyProdOne(p: int, n: nat, xton: seq<int>, p2: seq<int>)
    requires p >= 1 && n >= 1 && |xton| >= n && |p2| == n && IsDigits(p2, p)
    ensures PolyProd(p, n, xton, One(n), p2) == p2
  {
    var long := LongProd(n, One(n), p2);
    LongProdOneIs(n, p2);
    assert forall k :: n <= k <= 2 * n - 2 ==> long[k] == 0;
    PolyProdOfLow(p, n, xton, One(n), p2);
    var prod := PolyProd(p, n, xton, One(n), p2);
    forall k | 0 <= k < n
      ensures prod[k] == p2[k]
    {
      assert long[k] == p2[k];
      CRemSmall(p2[k], p);
    }
  }

  /** For `n == 1` (a prime field) the product is the C++ remainder of the integer product. */
  lemma PolyProdPrime(p: int, xton: seq<int>, a: int, b: int)
    requires p >= 1 && |xton| >= 1
    ensures PolyProd(p, 1, xton, [a], [b]) == [CRem(a * b, p)]
  {
    GridSumOnly(ConvTerm([a], [b], 0), 1, 1, 0, 0);
  }
}

=== FILE: polynomials.dfy ===
/**
 * Field elements as base-`p` digit vectors (least significant digit first):
 * positional value, the ripple-carry enumeration of `prepare`, and the local
 * helpers `polySum` and `poly2int` of src/field.cpp.
 */
module Polynomials {
  import opened Arithmetic

  function Zeros(n: nat): (z: seq<int>)
    ensures |z| == n && forall k :: 0 <= k < n ==> z[k] == 0
  {
    seq(n, k => 0)
  }

  /** Every entry is a base-`p` digit. */
  predicate IsDigits(d: seq<int>, p: int)
  {
    forall k :: 0 <= k < |d| ==> 0 <= d[k] < p
  }

  predicate NonNegative(d: seq<int>)
  {
    forall k :: 0 <= k < |d| ==> d[k] >= 0
  }

  /** Positional value Σ d[k]·p^k. */
  function Eval(d: seq<int>, p: int): int
  {
    if |d| == 0 then 0 else d[0] + p * Eval(d[1..], p)
  }

  /** The `n` base-`p` digits of `i`, least significant first. */
  function ToDigits(i: int, p: int, n: nat): (d: seq<int>)
    requires p >= 2 && i >= 0
    ensures |d| == n && IsDigits(d, p)
  {
    if n == 0 then []
    else
      DivBounds(i, p);
      var rest := ToDigits(i / p, p, n - 1);
      assert forall k :: 1 <= k <= |rest| ==> ([i % p] + rest)[k] == rest[k - 1];
      [i % p] + rest
  }

  // ---------------------------------------------------------------------
  // Digits and values
  // ---------------------------------------------------------------------

  /** A vector of base-`p` digits denotes a value in `[0, p^|d|)`. */
  lemma {:induction false} EvalRange(d: seq<int>, p: int)
    requires p >= 2 && IsDigits(d, p)
    ensures 0 <= Eval(d, p) < Pow(p, |d|)
  {
    if |d| > 0 {
      var rest := Eval(d[1..], p);
      EvalRange(d[1..], p);
      assert 0 <= p * rest;
      assert p * rest <= p * (Pow(p, |d| - 1) - 1);
    }
  }

  /** Reading back the digits of `i` gives `i`. */
  lemma {:induction false} EvalToDigits(i: int, p: int, n: nat)
    requires p >= 2 && 0 <= i < Pow(p, n)
    ensures Eval(ToDigits(i, p, n), p) == i
  {
    if n > 0 {
      var d := ToDigits(i, p, n);
      var hi, lo := i / p, i % p;
      DivBounds(i, p);
      assert i == p * hi + lo;
      var w := Pow(p, n - 1);
      assert Pow(p, n) == p * w;
      MulMonotone(p, w, hi);
      assert hi < w;
      assert d[0] == lo && d[1..] == ToDigits(hi, p, n - 1);
      EvalToDigits(hi, p, n - 1);
      assert Eval(d, p) == lo + p * Eval(d[1..], p);
    }
  }

  /** Writing out the value of a digit vector gives the vector back. */
  lemma {:induction false} ToDigitsEval(d: seq<int>, p: int)
    requires p >= 2 && IsDigits(d, p)
    ensures Eval(d, p) >= 0 && ToDigits(Eval(d, p), p, |d|) == d
  {
    EvalRange(d, p);
    if |d| > 0 {
      var rest := Eval(d[1..], p);
      EvalRange(d[1..], p);
      DivModUnique(Eval(d, p), p, rest, d[0]);
      ToDigitsEval(d[1..], p);
    }
  }

  /** Two values below `p^n` with the same digits are equal: the digit map is injective. */
  lemma ToDigitsInjective(i: int, j: int, p: int, n: nat)
    requires p >= 2 && 0 <= i < Pow(p, n) && 0 <= j < Pow(p, n)
    requires ToDigits(i, p, n) == ToDigits(j, p, n)
    ensures i == j
  {
    EvalToDigits(i, p, n);
    EvalToDigits(j, p, n);
  }

  lemma {:induction false} ZerosAreDigitsOfZero(p: int, n: nat)
    requires p >= 2
    ensures ToDigits(0, p, n) == Zeros(n)
  {
    if n > 0 {
      ZerosAreDigitsOfZero(p, n - 1);
      assert Zeros(n) == [0] + Zeros(n - 1);
    }
  }

  // ---------------------------------------------------------------------
  // Ripple-carry increment
  // ---------------------------------------------------------------------

  /** The position where the ripple carry stops: the first digit that is not `p - 1` (`|d|` if all are). */
  function Click(d: seq<int>, p: int): (c: nat)
    ensures c <= |d|
    ensures forall k :: 0 <= k < c ==> d[k] == p - 1
    ensures c < |d| ==> d[c] != p - 1
  {
    if |d| == 0 || d[0] != p - 1 then 0 else 1 + Click(d[1..], p)
  }

  /**
   * One step of the enumeration: the digits below the click become 0, the
   * digit at the click grows by one, and the digits above it are copied.
   */
  function Increment(d: seq<int>, p: int): (r: seq<int>)
    requires Click(d, p) < |d|
    ensures |r| == |d|
  {
    var c := Click(d, p);
    Zeros(c) + [d[c] + 1] + d[c + 1..]
  }

  /** The increment keeps every entry a base-`p` digit. */
  lemma IncrementDigits(d: seq<int>, p: int)
    requires p >= 2 && IsDigits(d, p) && Click(d, p) < |d|
    ensures IsDigits(Increment(d, p), p)
  {
    var c := Click(d, p);
    var r := Increment(d, p);
    forall k | 0 <= k < |r|
      ensures 0 <= r[k] < p
    {
      if k < c {
        assert r[k] == 0;
      } else if k == c {
        assert r[k] == d[c] + 1;
      } else {
        assert r[k] == d[k];
      }
    }
  }

  lemma EvalCons(x: int, s: seq<int>, p: int)
    ensures Eval([x] + s, p) == x + p * Eval(s, p)
  {
    assert ([x] + s)[1..] == s;
  }

  /** Without a carry only the lowest digit changes. */
  lemma IncrementNoCarry(d: seq<int>, p: int)
    requires |d| > 0 && d[0] != p - 1
    ensures Eval(Increment(d, p), p) == Eval(d, p) + 1
  {
    assert Increment(d, p) == [d[0] + 1] + d[1..];
    EvalCons(d[0] + 1, d[1..], p);
    assert d == [d[0]] + d[1..];
    EvalCons(d[0], d[1..], p);
  }

  /** A carry out of the lowest digit zeroes it and increments the rest. */
  lemma IncrementCarry(d: seq<int>, p: int)
    requires Click(d, p) < |d| && d[0] == p - 1
    ensures Click(d[1..], p) < |d| - 1
    ensures Increment(d, p) == [0] + Increment(d[1..], p)
  {
    assert Zeros(Click(d, p)) == [0] + Zeros(Click(d[1..], p));
  }

  /** The increment adds one to the value. */
  lemma {:induction false} IncrementValue(d: seq<int>, p: int)
    requires Click(d, p) < |d|
    ensures Eval(Increment(d, p), p) == Eval(d, p) + 1
  {
    if d[0] != p - 1 {
      IncrementNoCarry(d, p);
    } else {
      var tail := d[1..];
      IncrementCarry(d, p);
      IncrementValue(tail, p);
      var e, e1 := Eval(tail, p), Eval(Increment(tail, p), p);
      EvalCons(0, Increment(tail, p), p);
      assert Eval(Increment(d, p), p) == p * e1;
      assert d == [p - 1] + tail;
      EvalCons(p - 1, tail, p);
      assert Eval(d, p) == p - 1 + p * e;
      Distribute(p, e, 1);
    }
  }

  /** A vector of all top digits `p - 1` denotes `p^n - 1`. */
  lemma {:induction false} AllTopDigits(d: seq<int>, p: int)
    requires Click(d, p) == |d|
    ensures Eval(d, p) == Pow(p, |d|) - 1
  {
    if |d| > 0 {
      AllTopDigits(d[1..], p);
    }
  }

  /** The digits of any `i < p^n - 1` contain a digit below `p - 1`, so the carry stops inside the vector. */
  lemma ClickBelowTop(i: int, p: int, n: nat)
    requires p >= 2 && 0 <= i < Pow(p, n) - 1
    ensures Click(ToDigits(i, p, n), p) < n
  {
    EvalToDigits(i, p, n);
    if Click(ToDigits(i, p, n), p) == n {
      AllTopDigits(ToDigits(i, p, n), p);
    }
  }

  /** Incrementing the digits of `i` gives the digits of `i + 1`. */
  lemma IncrementToDigits(i: int, p: int, n: nat)
    requires p >= 2 && 0 <= i < Pow(p, n) - 1
    ensures Click(ToDigits(i, p, n), p) < n
    ensures Increment(ToDigits(i, p, n), p) == ToDigits(i + 1, p, n)
  {
    var d := ToDigits(i, p, n);
    ClickBelowTop(i, p, n);
    EvalToDigits(i, p, n);
    IncrementEval(d, p, i);
  }

  /** The increment of a digit vector with value `i` is the digit vector of `i + 1`. */
  lemma IncrementEval(d: seq<int>, p: int, i: int)
    requires p >= 2 && IsDigits(d, p) && Click(d, p) < |d| && Eval(d, p) == i
    ensures i >= 0 && ToDigits(i + 1, p, |d|) == Increment(d, p)
  {
    var e := Increment(d, p);
    IncrementDigits(d, p);
    IncrementValue(d, p);
    EvalRange(d, p);
    ToDigitsEval(e, p);
  }

  /**
   * Rows `0 .. count-1` of the polynomial table as `prepare` fills it: row 0
   * is all zeros and every later row is the ripple-carry increment of the
   * row before it.
   */
  function Enumerate(p: int, n: nat, count: nat): (rows: seq<seq<int>>)
    requires p >= 2 && count <= Pow(p, n)
    ensures |rows| == count
    ensures forall i :: 0 <= i < count ==> rows[i] == ToDigits(i, p, n)
    decreases count
  {
    if count == 0 then []
    else if count == 1 then
      ZerosAreDigitsOfZero(p, n);
      [Zeros(n)]
    else
      var prev := Enumerate(p, n, count - 1);
      EnumerateStep(p, n, prev);
      prev + [Increment(prev[count - 2], p)]
  }

  /** Appending the increment of the last row extends the enumeration by one row. */
  lemma EnumerateStep(p: int, n: nat, prev: seq<seq<int>>)
    requires p >= 2 && 1 <= |prev| < Pow(p, n)
    requires forall i :: 0 <= i < |prev| ==> prev[i] == ToDigits(i, p, n)
    ensures Click(prev[|prev| - 1], p) < |prev[|prev| - 1]|
    ensures forall i :: 0 <= i <= |prev| ==>
      (prev + [Increment(prev[|prev| - 1], p)])[i] == ToDigits(i, p, n)
  {
    var last := |prev| - 1;
    IncrementToDigits(last, p, n);
    var rows := prev + [Increment(prev[last], p)];
    assert rows[last + 1] == ToDigits(last + 1, p, n);
    assert forall i :: 0 <= i < |prev| ==> rows[i] == prev[i];
  }

  // ---------------------------------------------------------------------
  // polySum and poly2int
  // ---------------------------------------------------------------------

  /**
   * `polySum`: coefficient-wise sum with each coefficient taken through the
   * C++ remainder by `p`.
   */
  function PolySum(p: int, n: nat, p1: seq<int>, p2: seq<int>): (s: seq<int>)
    requires p >= 1 && |p1| == n && |p2| == n
    ensures |s| == n
    ensures forall k :: 0 <= k < n ==> (p1[k] + p2[k] - s[k]) % p == 0
    ensures NonNegative(p1) && NonNegative(p2) ==> IsDigits(s, p)
  {
    seq(n, k requires 0 <= k < n => CRem(p1[k] + p2[k], p))
  }

  /** On one coefficient, `polySum` is the C++ remainder of the sum. */
  lemma PolySumOneDigit(p: int, a: int, b: int)
    requires p >= 1
    ensures PolySum(p, 1, [a], [b]) == [CRem(a + b, p)]
  {
  }

  /** The loop of `poly2int` from index `i` down to 1: `ans := (ans + poly[i]) * p`. */
  function HornerFrom(p: int, poly: seq<int>, i: int, ans: int): int
    requires i < |poly|
    decreases i
  {
    if i <= 0 then ans else HornerFrom(p, poly, i - 1, (ans + poly[i]) * p)
  }

  lemma {:induction false} EvalAppend(s: seq<int>, x: int, p: int)
    ensures Eval(s + [x], p) == Eval(s, p) + x * Pow(p, |s|)
  {
    if |s| > 0 {
      var t, w := s[1..], Pow(p, |s| - 1);
      assert (s + [x])[1..] == t + [x];
      EvalAppend(t, x, p);
      assert Eval(s + [x], p) == s[0] + p * (Eval(t, p) + x * w);
      AppendRegroup(s[0], p, Eval(t, p), x, w);
    }
  }

  /** Regrouping one step of `EvalAppend`: `a + p·(e + x·w) == (a + p·e) + x·(p·w)`. */
  lemma AppendRegroup(a: int, p: int, e: int, x: int, w: int)
    ensures a + p * (e + x * w) == (a + p * e) + x * (p * w)
  {
    Distribute(p, e, x * w);
    assert p * (x * w) == x * (p * w);
  }

  /** Regrouping one Horner step: `(a + x)·p·w + p·e == a·(p·w) + p·(e + x·w)`. */
  lemma HornerRegroup(a: int, x: int, p: int, w: int, e: int)
    ensures ((a + x) * p) * w + p * e == a * (p * w) + p * (e + x * w)
  {
    assert ((a + x) * p) * w == a * (p * w) + p * (x * w);
    Distribute(p, e, x * w);
  }

  /** After the loop has consumed `poly[i], ..., poly[1]`, the accumulator `ans` has been scaled by `p^i`. */
  lemma {:induction false} HornerFromValue(p: int, poly: seq<int>, i: int, ans: int)
    requires 0 <= i < |poly|
    ensures HornerFrom(p, poly, i, ans) == ans * Pow(p, i) + p * Eval(poly[1..i + 1], p)
    decreases i
  {
    if i > 0 {
      var acc := (ans + poly[i]) * p;
      HornerFromValue(p, poly, i - 1, acc);
      assert poly[1..i + 1] == poly[1..i] + [poly[i]];
      EvalAppend(poly[1..i], poly[i], p);
      var e := Eval(poly[1..i], p);
      var w := Pow(p, i - 1);
      assert HornerFrom(p, poly, i, ans) == acc * w + p * e;
      HornerRegroup(ans, poly[i], p, w, e);
      assert Pow(p, i) == p * w;
    }
  }

  /**
   * `poly2int`: the Horner evaluation of a length-`n` vector. It is the
   * positional value, and a vector of digits lands in `[0, p^n)`.
   */
  function Poly2Int(p: int, n: int, poly: seq<int>): (r: int)
    requires n >= 1 && |poly| == n
    ensures r == Eval(poly, p)
    ensures p >= 2 && IsDigits(poly, p) ==> 0 <= r < Pow(p, n)
  {
    HornerFromValue(p, poly, n - 1, 0);
    assert poly[1..n] == poly[1..];
    var r := HornerFrom(p, poly, n - 1, 0) + poly[0];
    if p >= 2 && IsDigits(poly, p) then EvalRange(poly, p); r else r
  }
}

=== FILE: prime_powers.dfy ===
/**
 * The prime-power oracle `findPrimePower` that `getField` consults. Its
 * implementation is not part of this model; what follows is a reference
 * implementation of its documented contract: succeed exactly when
 * `q == p^n` with `p` prime and `n >= 1`, reporting that `p` and `n`.
 */
module PrimePowers {
  import opened Wrappers
  import opened Arithmetic

  ghost predicate Prime(p: int)
  {
    p >= 2 && forall d :: 2 <= d < p ==> p % d != 0
  }

  ghost predicate IsPrimePower(q: int)
  {
    exists p, n: nat :: Prime(p) && n >= 1 && Pow(p, n) == q
  }

  /** Trial division: no k in `[d, p)` divides `p`. */
  function NoDivisorFrom(p: int, d: int): (r: bool)
    requires d >= 2
    ensures r <==> forall k :: d <= k < p ==> p % k != 0
    decreases p - d
  {
    d >= p || (p % d != 0 && NoDivisorFrom(p, d + 1))
  }

  function IsPrime(p: int): (r: bool)
    ensures r <==> Prime(p)
  {
    p >= 2 && NoDivisorFrom(p, 2)
  }

  /** The exponent `e` with `b^e == q`, when `q` is an exact power of `b`. */
  function ExactLog(q: int, b: int): (r: Option<nat>)
    requires b >= 2
    ensures r.Some? ==> Pow(b, r.value) == q
    decreases if q < 1 then 0 else q
  {
    if q == 1 then Some(0)
    else if q < 1 || q % b != 0 then None
    else match ExactLog(q / b, b)
      case None => None
      case Some(e) =>
        assert Pow(b, e + 1) == b * (q / b);
        Some(e + 1)
  }

  lemma {:induction false} ExactLogOfPower(b: int, e: nat)
    requires b >= 2
    ensures ExactLog(Pow(b, e), b) == Some(e)
  {
    if e > 0 {
      PowPositive(b, e - 1);
      PowAtLeastBase(b, e);
      DivModUnique(Pow(b, e), b, Pow(b, e - 1), 0);
      ExactLogOfPower(b, e - 1);
    }
  }

  /** The first base `b, b+1, ..., q` that is a prime of which `q` is a positive power. */
  function SearchBase(q: int, b: int): (r: Option<(int, nat)>)
    requires b >= 2
    ensures r.Some? ==> Prime(r.value.0) && r.value.1 >= 1 && Pow(r.value.0, r.value.1) == q
    decreases q - b
  {
    if b > q then None
    else if q % b == 0 && IsPrime(b) && ExactLog(q, b).Some? then Some((b, ExactLog(q, b).value))
    else SearchBase(q, b + 1)
  }

  lemma {:induction false} SearchBaseComplete(q: int, b: int)
    requires b >= 2
    ensures SearchBase(q, b).None? ==> forall p, n: nat :: b <= p && Prime(p) && n >= 1 ==> Pow(p, n) != q
    decreases q - b
  {
    if b <= q && !(q % b == 0 && IsPrime(b) && ExactLog(q, b).Some?) {
      SearchBaseComplete(q, b + 1);
      if Prime(b) {
        forall n: nat | n >= 1
          ensures Pow(b, n) != q
        {
          ExactLogOfPower(b, n);
          DivModUnique(Pow(b, n), b, Pow(b, n - 1), 0);
        }
      }
    } else if b > q {
      forall p, n: nat | b <= p && Prime(p) && n >= 1
        ensures Pow(p, n) != q
      {
        PowAtLeastBase(p, n);
      }
    }
  }

  /** `findPrimePower(q, &p, &n)`: `Some((p, n))` exactly when `q == p^n` for a prime `p` and `n >= 1`. */
  function FindPrimePower(q: int): (r: Option<(int, nat)>)
    ensures r.Some? ==> Prime(r.value.0) && r.value.1 >= 1 && Pow(r.value.0, r.value.1) == q
    ensures r.Some? <==> IsPrimePower(q)
  {
    SearchBaseComplete(q, 2);
    SearchBase(q, 2)
  }
}

=== FILE: wrappers.dfy ===
/** Failure-carrying datatypes that stand in for the C++ exceptions of galois++. */
module Wrappers {

  /** A value or nothing: a non-null pointer or a null one. */
  datatype Option<+T> = None | Some(value: T)

  /** A computed value, or the error the C++ code would have thrown instead. */
  datatype Result<+R, +E> = Success(value: R) | Failure(error: E) {
    predicate IsFailure() { Failure? }
  }

  /** Completion of an in-place operation: it returned normally, or it threw. */
  datatype Outcome<+E> = Pass | Fail(error: E)
}

/** The errors galois++ throws, one constructor per throw site. */
module Errors {

  datatype Error =
      /** getField: `q < 1` ("Field must have positive number of elements.") */
    | NonPositiveSize(q: int)
      /** getField: `q == 1` ("Field with 1 element was requested.") */
    | TrivialSize
      /** getField: findPrimePower rejected `q` */
    | NotPrimePower(q: int)
      /** getField: the catalog has no (or an empty) `x^n` vector for `q` */
    | NotInCatalog(q: int, p: int, n: int)
      /** prepare: element `i` has no reciprocal */
    | NoReciprocal(q: int, i: int)
      /** prepare: element `i` has no negative */
    | NoNegative(q: int, i: int)
      /** Element: value outside `[0, q)` or no field (std::domain_error) */
    | InvalidValue
      /** Element: `/` by the zero element (std::domain_error) */
    | DivideByZero
      /** Element: `%` by the zero element (std::domain_error) */
    | ModuloByZero
      /** Element, under GF_SIZE_DEBUG: operands from fields of different size */
    | IncompatibleFields
}
